=== FILE: README.md ===
# imagegen asset pipeline in Dafny

This project models the core of the `imagegen` asset pipeline. The pipeline generates product and
page images with the OpenAI Images API, encodes each image into several sizes and formats, records
the images in a JSON manifest, and links manifest entries into the content database of a website.
Every part is written as pure functions over immutable data, with their contracts and lemmas:

- **`Utils`** (`src/utils.js`): `slug`, `ts`, `fileStem`, `isTrue`, and `retry` over a provider
  indexed by attempt number.
- **`Manifest`** (`src/manifest.js`): `updateManifest`. Entries are normalised and appended to the
  stored manifest.
- **`Postprocess`** (`src/postprocess.js`): the file plan of `saveMultiFormats`. This is which
  output files are written and in what order, their encodings, and the LQIP placeholder files.
- **`OpenAI`** (`src/providers/openai.js`): `normalizeSize`, including its size regular
  expression; the request parameters of `generateOpenAI` and `editOpenAI`; and the missing-key
  failure.
- **`Edit`** (`src/edit.js`): the product edit batch. For each file it runs the degradation chain
  (remote edit, then background removal, then a generated studio image), then the fixed encoder
  plan, and stops at the first uncaught error.
- **`Generate`** (`src/index.js`): the generation driver. It runs the configuration checks before
  any request, then builds the final prompt and the count, then names and records every image, and
  writes the manifest once at the end.
- **`PromptBuilder`** (`src/prompt-builder.js`): the page topic slug, the container fallback, the
  prompt template, and the metadata object.
- **`ContentLinker`** (`src/content-linker.js`): the entry window, candidate selection, slider or
  single slot construction, and the database update.
- **`Results`, `Seqs`, `Strings`**: shared helpers (`Option`/`Result`, filter, and JavaScript string
  operations).

The outside world is passed in as parameters:

- **Provider and network:** the provider is a function from attempt number to outcome.
- **Files:**
  - The stored manifest is an `Option` value, with `None` for a missing file.
  - The content database is also an `Option` value.
  - A directory listing is a sequence of names.
- **Clock:** the clock readings are per-item ISO time strings; the `ts()` stamps in file names are Utils.Ts of them.
- **Encoder and background removal:** each is one outcome per file.

A JavaScript value that may be `undefined`/`null` or a string is an `Option<string>`. Its
truthiness is `Strings.IsTruthy`, under which `Some("")` is falsy.

## Model

| member | source | states |
|---|---|---|
| Strings.OrElse | src/edit.js:11-13 | `x \|\| fallback` for an optional string: the value when it is a non-empty string, the fallback otherwise |
| Strings.Trim | src/prompt-builder.js:37 | `trim()` keeps no white space at either end, is empty exactly for all-white-space text, and adds no character |
| Strings.TrimIsSlice | src/prompt-builder.js:37 | the trimmed text is one contiguous slice of the input, with only white space before and after it |
| Strings.Split | src/prompt-builder.js:21 | `split(sep)` gives at least one piece and no piece contains the separator |
| Strings.JoinSplit | src/prompt-builder.js:21 | joining the pieces of a split with the separator gives back the text |
| Strings.NatToString | src/index.js:56 | `String(n)` of a natural number is digits without a leading zero that read back as `n` |
| Strings.PadStart | src/index.js:56 | `padStart(width, fill)` reaches the width, keeps the text as its suffix and fills only in front |
| Strings.LowerIdempotent | src/providers/openai.js:15 | lower-casing twice is lower-casing once |
| Utils.CollapseRuns | src/utils.js:5 | the collapsed text has slug characters only, no double dash, and ends in a dash exactly when the input ended on a non-alphanumeric |
| Utils.CollapseOfRun | src/utils.js:5 | a non-empty run of characters outside `[a-z0-9]` becomes exactly one `-` |
| Utils.CollapseOfWord | src/utils.js:5 | letters and digits are kept as they are |
| Utils.CollapseConcat | src/utils.js:5 | collapsing two texts joined where a letter or digit sits at the cut is collapsing each and joining; with the two lemmas above this fixes the result for every input, one run at a time |
| Utils.CollapseWords | src/utils.js:5 | two words around a run of other characters come out joined by one `-` |
| Utils.CollapseKeepsAlnum | src/utils.js:5 | replacing runs keeps every lower-case letter and digit, in order |
| Utils.TrimDashes | src/utils.js:5 | removing leading and trailing dashes leaves the slice between them with no dash at either end |
| Utils.TrimDashesKeepsAlnum | src/utils.js:5 | trimming dashes keeps every letter and digit in order |
| Utils.Slug | src/utils.js:5 | a slug has only `[a-z0-9-]`, at most 80 characters, no leading dash and no double dash; when the dash-trimmed collapsed text fits in 80 characters it is the slug, so then the slug keeps every letter and digit and does not end in a dash |
| Utils.SlugIdempotent | src/utils.js:5 | a slug that does not end in a dash is its own slug |
| Utils.LowerOfSlugShape | src/utils.js:5 | lower-casing leaves slug-shaped text unchanged |
| Utils.Ts | src/utils.js:6 | `ts()` replaces every `:` and `.` of the ISO time with `-` and keeps every other character and the length |
| Utils.FileStem | src/utils.js:9 | a file stem is `prefix-`, then exactly the first 40 characters of the slug of the text, then `-stamp` |
| Utils.IsTrue | src/utils.js:10 | `isTrue` holds exactly for `true`, `'true'`, `1` and `'1'`, each of them truthy |
| Utils.Retry | src/utils.js:12-18 | attempts are numbered from 0, there are at most `retries + 1` of them, it succeeds exactly when some attempt up to `retries` succeeds (returning the first success), otherwise it fails with the last error after all attempts, and it sleeps between attempts but not after the last |
| Utils.RetryLoop | src/utils.js:13-17 | the loop from a given attempt runs consecutive attempts and stops at the first success or after attempt `retries` |
| Utils.RetryCount | src/utils.js:12 | the `OPENAI_MAX_RETRIES` count is the configured number unless missing or 0, then 3; both providers send under this count |
| Manifest.Normalize | src/manifest.js:6-16 | a normalised entry keeps preset, prompt and files, takes the current time for a falsy `createdAt`, turns falsy page/container/alt/description into null and missing keywords into `[]` |
| Manifest.NormalizeNormal | src/manifest.js:6-16 | normalising an already normal entry gives it back unchanged |
| Manifest.Stored | src/manifest.js:5 | a manifest file that does not exist reads as no entries; an existing one reads as its entries |
| Manifest.Append | src/manifest.js:4-18 | the new manifest is the stored one (empty when absent), unchanged, followed by one normalised entry per new entry, in order |
| Manifest.AppendTwice | src/manifest.js:17 | appending two batches one after the other equals appending them at once, the clock readings following each other |
| Manifest.AppendAt | src/manifest.js:4-18 | entry `k` of the new manifest is the stored entry `k`, or the normalised new entry `k` minus the stored count, stamped at that reading of the clock |
| Manifest.AppendKeepsNormal | src/manifest.js:6-17 | a manifest of normal entries stays normal after an update |
| Postprocess.EncodingOf | src/postprocess.js:17-23 | `jpg` (quality, mozjpeg), `png` (no quality), `webp` and `avif` (quality) are encoded and every other format is skipped |
| Postprocess.KnownFormats | src/postprocess.js:17-22 | the formats kept are exactly the known ones of the list, in the list's order and with repeats kept |
| Postprocess.KnownFormatsConcat | src/postprocess.js:17-22 | the known formats of two lists joined are the known formats of each, joined |
| Postprocess.KnownFormatsOne | src/postprocess.js:17-22 | one format is kept exactly when it is `jpg`, `png`, `webp` or `avif` |
| Postprocess.FilePath | src/postprocess.js:24 | each output file is `{baseName}-{w}x{h}.{format}` at the end of the path, under the output directory when one is given |
| Postprocess.JoinPath | src/postprocess.js:24 | the joined path is the name alone for an empty directory, and otherwise the directory, at most one `/`, and the name, with a `/` before the name |
| Postprocess.AllOutputsLength | src/postprocess.js:12-33 | there is one output per size and known format |
| Postprocess.AllOutputsAt | src/postprocess.js:12-33 | the output at `i * formats + j` is size `i` in format `j` |
| Postprocess.AllOutputsOrder | src/postprocess.js:12-33 | outputs are ordered size-major, formats in their given order within each size |
| Postprocess.MainIsNotSidecar | src/postprocess.js:24-29 | no image file path is a placeholder path |
| Postprocess.SidecarsOfJpegs | src/postprocess.js:27-30 | with LQIP on there is one placeholder per JPEG output, at its path plus `.lqip.txt`; with it off there are none |
| Postprocess.SaveMultiFormats | src/postprocess.js:7-35 | the default options apply to missing ones, no output is a placeholder, and without LQIP no placeholder is written |
| Postprocess.SaveMultiFormatsOrder | src/postprocess.js:8-26 | the plan has sizes times known formats outputs in size-major order |
| Postprocess.SaveMultiFormatsSidecars | src/postprocess.js:27-30 | the plan's placeholders follow exactly its JPEG outputs |
| Postprocess.Paths | src/postprocess.js:26-34 | the result lists the path of each output, in order |
| Postprocess.ReturnedPaths | src/postprocess.js:11-34 | one path is returned per size and known format, and no placeholder file is among them |
| OpenAI.MatchAt | src/providers/openai.js:17 | a match of `(\d+)\s*x\s*(\d+)` at a position is digits, spaces, `x`, spaces, digits, with the second number maximal |
| OpenAI.MatchAtComplete | src/providers/openai.js:17 | whenever the pattern occurs at a position, the matcher finds it there with the same width and separator |
| OpenAI.FirstMatch | src/providers/openai.js:17 | the match found is the leftmost one |
| OpenAI.NormalizeSize | src/providers/openai.js:12-25 | the result is always an allowed size, `1024x1024` for a falsy size, and the lower-cased size when that is allowed |
| OpenAI.NormalizeSizeNoPattern | src/providers/openai.js:17-24 | a disallowed size without a `WxH` pattern becomes `1024x1024` |
| OpenAI.NormalizeSizeCompares | src/providers/openai.js:17-22 | for the leftmost `WxH` pattern with finite numbers the size is landscape when `W >= H` and portrait otherwise |
| OpenAI.SquareIsLandscape | src/providers/openai.js:15-21 | `512X512` is lower-cased, matched, and counts as landscape because the comparison is `>=` |
| OpenAI.RequestSize | src/providers/openai.js:27-33 | the sent size is `normalizeSize` of the given size, or of the `1024x1024` default when none is given, and so is allowed |
| OpenAI.GenerateParams | src/providers/openai.js:33-35 | a generate request carries `gpt-image-1`, the prompt, the normalised size and the count |
| OpenAI.EditParams | src/providers/openai.js:47-50 | an edit request carries `gpt-image-1`, the prompt and the normalised size, and has `background: transparent` exactly when asked for |
| OpenAI.Send | src/providers/openai.js:32-38 | a request under `retry` succeeds exactly when some attempt succeeds, with the first success as the result |
| OpenAI.GenerateOpenAI | src/providers/openai.js:27-39 | without a key there is no request and a credentials error; otherwise the generate request is sent under `retry` with the `OPENAI_MAX_RETRIES` count |
| OpenAI.EditOpenAI | src/providers/openai.js:41-54 | without a key there is no request and a credentials error; otherwise the edit request is sent under `retry` with the `OPENAI_MAX_RETRIES` count |
| Edit.SettingsOf | src/edit.js:11-13 | the input directory, output directory and mode default to `input/product`, `public/img/product` and `isolate-white` |
| Edit.ImageFiles | src/edit.js:17 | the files processed are exactly the listing's names ending in `.png`, `.jpg`, `.jpeg` or `.webp`, ignoring case |
| Edit.ImageNameExamples | src/edit.js:17 | `shot.PNG`, `shot.Jpeg` and `.webp` are images; `shot.gif`, `png` and `shot.png.txt` are not |
| Edit.LastIndexOf | src/edit.js:52 | the last index of a character, or -1 when it does not occur |
| Edit.Stem | src/edit.js:52 | `path.basename(f, path.extname(f))` is a prefix of the file name |
| Edit.StemOfImage | src/edit.js:52 | the stem of an image file drops its extension, except for a name that is only a dot and the extension |
| Edit.EditPrompt | src/edit.js:35-37 | the isolation prompt is used exactly in `isolate-white` mode and the enhancement prompt otherwise |
| Edit.Transparent | src/edit.js:20 | a transparent background is requested exactly in `product_transparent` mode |
| Edit.EditCall | src/edit.js:19-22 | the remote edit asks for a 1024x1024 edit with the mode's prompt and transparency; without a key there is no request, no attempt and a credentials error |
| Edit.TryEdit | src/edit.js:19-22 | a failed remote edit yields no image instead of an error |
| Edit.Degrade | src/edit.js:39-50 | the remote edit is tried first, background removal only after a failed edit in `isolate-white` mode, and the last resort only when both gave nothing; each image comes from the last tier tried, and only the last resort can stop the batch |
| Edit.Chain | src/edit.js:39-50 | with the real calls: an image from the edit call ends the chain, background removal is tried exactly after a failed edit in `isolate-white` mode, the last resort exactly when both gave nothing, and a stop comes only from a failed or empty last-resort call |
| Edit.NoKeyFallsThrough | src/edit.js:19-50 | without a key a working background removal supplies the image in `isolate-white` mode, and in other modes the file stops with the credentials error |
| Edit.KnownEditFormats | src/edit.js:53 | all three edit formats are encoded |
| Edit.EditPlanOutputs | src/edit.js:53 | an edited file gets six outputs: 1200x1200 then 800x800, each as jpg, webp and png at quality 92 |
| Edit.EditPlanSidecars | src/edit.js:53 | an edited file gets exactly two placeholders, after its two JPEG outputs |
| Edit.OutputName | src/edit.js:52 | the output name is `product-`, then exactly the first 40 characters of the slug of the file stem, then `-stamp` |
| Edit.Finish | src/edit.js:52-53 | a file is encoded under its output name with the fixed plan exactly when a tier gave an image and the encoder accepts it, and otherwise stops the batch with its reason |
| Edit.ProcessFile | src/edit.js:30-54 | one file is encoded exactly when its chain gave an image and the encoder accepts it, under the name `fileStem(stem, 'product')` with the `ts()` of its clock reading, with the fixed plan |
| Edit.UpToFirstStop | src/edit.js:29-55 | the runs kept are a prefix ending at the first stopped file, and every earlier file was encoded |
| Edit.UpToFirstStopAll | src/edit.js:29-55 | when no file stops, every file is processed |
| Edit.EditBatch | src/edit.js:11-56 | the batch processes the image files in listing order with the settings' defaults, each with its own chain, until the first file that stops |
| Generate.MetaOf | src/index.js:33-37 | the `--meta` file replaces `--prompt` entirely, and an unreadable one is an invalid-meta failure |
| Generate.Resolve | src/index.js:20-38 | the checks run in order: no key, then an unknown preset, then an unreadable `--meta` file, then a missing prompt, each with its own failure; a job exists exactly when all four pass |
| Generate.FinalPrompt | src/index.js:40 | the final prompt starts with the prompt and the style, and ends with the avoid clause |
| Generate.Count | src/index.js:41 | the count is the first of the flag and the preset count that is given and not 0, else 1 |
| Generate.ZeroCountFallsThrough | src/index.js:41 | `--count 0` behaves as no count |
| Generate.RequestOf | src/index.js:48-52 | the request carries the final prompt, the normalised preset size and the count |
| Generate.Counter | src/index.js:56 | the counter is exactly two digits below 10, zero-padded, the plain number from 10 on, and reads back as `i + 1` |
| Generate.ZeroPadValue | src/index.js:56 | padding with zeros does not change the number a digit string reads as |
| Generate.BaseName | src/index.js:56 | the output name is the file stem of the prompt under the preset name and stamp, then `-` and the counter |
| Generate.DraftOf | src/index.js:64 | the record of image `i` has the preset, the raw prompt, the paths of its plan, its creation time and the metadata fields |
| Generate.FirstRejected | src/index.js:55-65 | the first index the encoder rejects, with every earlier one accepted |
| Generate.Run | src/index.js:20-69 | a configuration failure sends no request; once the preset resolves, any failure is a provider or encoder one, after the resolved request, and leaves the manifest unwritten; a completed run has one record per returned image, all encoded, appended once to the stored manifest |
| Generate.Save | src/index.js:54-69 | the first image the encoder rejects ends the run with every earlier one accepted and no manifest; otherwise there is one record per image, in order, appended once to the stored manifest |
| Generate.RunCompletes | src/index.js:43-69 | a run completes exactly when the configuration resolves, the provider returns images and every image encodes |
| Generate.NewEntries | src/index.js:54-69 | the stored entries are kept, and new entry `i` records the preset, the raw prompt, the files of image `i` under its counter name and its creation time |
| PromptBuilder.Segments | src/prompt-builder.js:21 | the non-empty path segments contain no slash |
| PromptBuilder.TopicSlug | src/prompt-builder.js:21 | the slug is non-empty and has no slash |
| PromptBuilder.AfterLastSlash | src/prompt-builder.js:21 | the text after the last slash is a slash-free suffix that starts the text or follows a slash |
| PromptBuilder.TopicSlugIsLastSegment | src/prompt-builder.js:21 | the slug is what follows the last slash once trailing slashes are removed, and `default` for a page of slashes only |
| PromptBuilder.PageTopic | src/prompt-builder.js:20-23 | the topic is the slug's rule or the fixed shop-interior default |
| PromptBuilder.PageTopicOfNestedPath | src/prompt-builder.js:20-23 | leading directories and a trailing slash do not change a page's topic |
| PromptBuilder.ContainerRuleOf | src/prompt-builder.js:27 | an unknown container uses the hero rules, and only a missing hero rule fails |
| PromptBuilder.Avoid | src/prompt-builder.js:29 | the avoid text joins the non-empty negatives and container avoid with `, `, and is empty exactly when both are |
| PromptBuilder.Fragment | src/prompt-builder.js:31-32 | the keywords and context fragments are empty exactly when their text is empty, and otherwise are the heading followed by the text |
| PromptBuilder.BuildPrompt | src/prompt-builder.js:25-34 | the prompt starts with topic and brand mood, ends with style and avoid, and has the two fragments around one space between them |
| PromptBuilder.BarePrompt | src/prompt-builder.js:31-33 | with no keywords and no description one space separates the mood part from the style part |
| PromptBuilder.KeywordList | src/prompt-builder.js:37 | each keyword is a non-empty, trimmed, comma-free piece of the input |
| PromptBuilder.KeywordListOfPiece | src/prompt-builder.js:37 | text without a comma gives its trimmed self as the one keyword, or none when that is empty |
| PromptBuilder.KeywordListSnoc | src/prompt-builder.js:37 | appending `,piece` to the text appends exactly the keyword of that piece, if any, to the list |
| PromptBuilder.KeywordListOfPair | src/prompt-builder.js:37 | two clean keywords joined by `, ` split back into exactly those two |
| PromptBuilder.MetaKeywords | src/prompt-builder.js:37 | the guard for empty keywords gives the same list as splitting |
| PromptBuilder.KeywordsRoundTrip | src/prompt-builder.js:37 | keywords written comma-separated read back as the same list in the same order |
| PromptBuilder.AltText | src/prompt-builder.js:37 | an empty alt text becomes `"{brand} {container} visual"` |
| PromptBuilder.BuildMeta | src/prompt-builder.js:36-37 | the metadata holds the built prompt, the page and container, the alt text with its default, the description and the keyword list, with the brand `GrowCologne` by default |
| PromptBuilder.DefaultAlt | src/prompt-builder.js:10-13 | with every optional flag left out the alt text names `GrowCologne` and the container and the keywords are empty |
| ContentLinker.ContainerOf | src/content-linker.js:19-25 | the `hero_`, `slider_` and `product_` prefixes map to their containers and everything else to none |
| ContentLinker.Start | src/content-linker.js:29 | a non-negative `--from-index` is the start; otherwise the start is the last entry |
| ContentLinker.Window | src/content-linker.js:30 | the window is the manifest from the start, empty past its end |
| ContentLinker.DefaultWindowIsLatest | src/content-linker.js:29-30 | with no start index only the latest entry is considered |
| ContentLinker.Candidates | src/content-linker.js:38-43 | the candidates are exactly the window entries the arguments select |
| ContentLinker.SelectsByPrefix | src/content-linker.js:39-43 | without `--preset` an entry is selected exactly when its preset prefix names the container |
| ContentLinker.PickFile | src/content-linker.js:57-60 | an entry's file is its first file, or empty without files |
| ContentLinker.ItemOf | src/content-linker.js:63-68 | an item takes the file, the alt text or else the prompt, the description or null, the keywords and the creation time |
| ContentLinker.SliderItems | src/content-linker.js:63-69 | slider items all have a file |
| ContentLinker.SliderItemsOfFiledEntries | src/content-linker.js:63-69 | slider items are the items of exactly the candidates that have a file, in order |
| ContentLinker.PageKey | src/content-linker.js:53 | one trailing slash is removed from the page |
| ContentLinker.PageKeyStripsOneSlash | src/content-linker.js:53 | `/shop//` becomes `/shop/` and `/` becomes the empty key |
| ContentLinker.WriteSlot | src/content-linker.js:54-90 | only the one container slot of the one page changes; every other page and container is kept |
| ContentLinker.Link | src/content-linker.js:27-93 | an empty window and an empty selection fail before anything is written; otherwise the result is the slot write of the selected entries into the page's record, or the slot's own error |
| ContentLinker.CandidatesFromWindow | src/content-linker.js:29-43 | no entry before the start index is ever linked |
| ContentLinker.LinkSlotIndependent | src/content-linker.js:50-91 | whether linking succeeds, and what it writes in its slot, does not depend on the stored database |
| ContentLinker.LinkIdempotent | src/content-linker.js:50-93 | linking a second time with the same input changes nothing |
| ContentLinker.SliderExample | src/content-linker.js:62-75 | two slider entries become a two-item list in manifest order |
| ContentLinker.HeroExample | src/content-linker.js:76-90 | a hero takes only the last of two candidates |

## Left out

- **I/O and side effects:**
  - file system access, directory creation, JSON parsing and printing
  - logging
  - the temporary file `edit.js` writes before the edit call
  - the actual image encoding and LQIP generation (`sharp`)
  - background removal itself
  - These are effects on the world. The model takes their outcomes as parameters.
- Command-line parsing (`yargs`), and `ajv` validation of `presets.json` and `prompt-rules.json`. The
  validated configuration is taken as already well typed: topics have three strings, a container
  rule has a string style, and the negatives are a string.
- `path.resolve`/`path.join` normalisation (`.` and `..` segments, repeated slashes, and an absolute
  segment such as an absolute `output_subdir`, which `path.resolve` returns as it is). Postprocess.JoinPath
  returns the name for an empty directory, `dir + name` for a directory ending in `/`, and
  `dir + "/" + name` otherwise. The absolute root `public/img` is a parameter.
- Utils.Retry: the backoff delays (`base * factor^attempt` with random jitter) and the timers are not
  modelled. Only the attempt numbers, and the sleeps between attempts, are.
- Utils.Retry: the retry count is an integer. A fractional `OPENAI_MAX_RETRIES` such as `1.5`, which
  the attempt number never equals (two attempts, then a sleep after the last failure before
  rethrowing), and `Infinity`, which never stops on a persistent failure, are not modelled.
- Strings.Trim: the contract leaves out that the result is the slice between the leading and the
  trailing white space. Strings.TrimIsSlice states it for every input. Kept out of the contract
  because every caller of `Trim` would carry the quantified slice.
- PromptBuilder.KeywordList: the contract states what each keyword is, not the whole list.
  The list itself, in order, is fixed for every input by PromptBuilder.KeywordListOfPiece and
  PromptBuilder.KeywordListSnoc, by induction on the comma-separated pieces.
- ContentLinker.Start: `--from-index` is an integer. A fractional index, which `slice` truncates,
  is not modelled.
- OpenAI.NormalizeSize: a non-string size (`String(size)` of a number or object) is not modelled.
  `parseInt` is exact up to the double overflow threshold `2^1024 - 2^970`. The rounding of
  numbers above `2^53` is not modelled, so two huge widths that round to the same double may compare
  differently in the model.
- `Generate`: a `--meta` file that parses to something other than an object is not modelled (for
  example `null`, or a prompt that is not a string). Counts are integers: `NaN` counts and fractional ones (`--count 1.5`, which is truthy
  and sent as `n: 1.5`) are not modelled.
- `ContentLinker`: the stored database is assumed to map pages to objects. Object keys that
  collide with JavaScript prototype properties (`__proto__`, `constructor`) are not modelled, here,
  in `PromptBuilder` and in Generate.Resolve (`--preset constructor` finds the inherited
  `constructor` and then fails reading its style, which the model reports as an unknown preset).
- Other repository parts: `src/logo-fix.js`, `src/svg-gen.js`, `src/logger.js` and
  `src/validate-config.js` are not part of this model.

Behaviour of the code worth noting:

- `Edit`: in `edit.js`, only the last resort can stop the batch: a failed generate call, or an
  encoder error. An empty image list from the last resort also stops the batch: no later file is
  processed. The edit and background-removal failures are caught and fall through.
- `Postprocess`: a placeholder is written after every JPEG output of every size, because the format
  loop runs inside the size loop.

=== FILE: content_linker.dfy ===
/**
 The windowed linking step of `src/content-linker.js`: it picks the newly
 added manifest entries from a start index on, keeps those that belong to the
 requested preset or container, turns them into content items (all of them,
 in order, for a slider; the last one otherwise) and writes that one slot of
 the content database. A failure leaves the database as it was: the model
 returns an error instead of a database.
 */
module ContentLinker {
  import opened Results
  import opened Seqs
  import opened Strings
  import opened Manifest

  /** The command-line arguments; `preset` is `''` and `fromIndex` is `-1` when not given. */
  datatype Args = Args(page: string, container: string, preset: string, fromIndex: int)

  /** One image as the site reads it. `description` is `None` for `null`. */
  datatype ContentItem = ContentItem(
    file: string,
    alt: string,
    description: Option<string>,
    keywords: seq<string>,
    generatedAt: string)

  /** What a container slot holds: one item (hero, product) or a list (slider). */
  datatype Slot = Single(item: ContentItem) | List(items: seq<ContentItem>)

  /** Containers by name within one page. */
  type Page = map<string, Slot>

  /** The content database: pages by page key. */
  type Db = map<string, Page>

  datatype LinkError =
    | NoNewEntries   // the window is empty
    | NoMatch        // no entry of the window belongs to the preset or container
    | NoFiles        // slider: no candidate has a file
    | NoFileInLast   // hero or product: the last candidate has no file

  /**
   `mapPresetToContainer(preset)`: the container a preset name belongs to by
   its prefix; names with none of the three prefixes, the empty one included,
   belong to none.
   */
  function ContainerOf(preset: string): (r: Option<string>)
    ensures r == Some("hero") <==> StartsWith(preset, "hero_")
    ensures r == Some("slider") <==> StartsWith(preset, "slider_")
    ensures r == Some("product") <==> StartsWith(preset, "product_")
    ensures r.None? <==>
      !StartsWith(preset, "hero_") && !StartsWith(preset, "slider_") && !StartsWith(preset, "product_")
  {
    assert StartsWith(preset, "hero_") ==> preset[0] == 'h';
    assert StartsWith(preset, "slider_") ==> preset[0] == 's';
    assert StartsWith(preset, "product_") ==> preset[0] == 'p';
    if preset == "" then None
    else if StartsWith(preset, "hero_") then Some("hero")
    else if StartsWith(preset, "slider_") then Some("slider")
    else if StartsWith(preset, "product_") then Some("product")
    else None
  }

  /**
   The first index of the window: `from-index` when it is not negative,
   otherwise the index of the last entry (0 for an empty manifest).
   */
  function Start(fromIndex: int, length: nat): (start: nat)
    ensures fromIndex >= 0 ==> start == fromIndex
    ensures fromIndex < 0 ==> start == if length == 0 then 0 else length - 1
  {
    if fromIndex >= 0 then fromIndex
    else if length == 0 then 0
    else length - 1
  }

  /** `manifest.slice(start)`: the entries from `start` on, none when `start` is past the end. */
  function Window(manifest: seq<Entry>, start: nat): (w: seq<Entry>)
    ensures start <= |manifest| ==> w == manifest[start..]
    ensures start > |manifest| ==> w == []
  {
    if start <= |manifest| then manifest[start..] else []
  }

  /** Without `from-index`, only the latest entry is new. */
  lemma DefaultWindowIsLatest(manifest: seq<Entry>, fromIndex: int)
    requires fromIndex < 0 && manifest != []
    ensures Window(manifest, Start(fromIndex, |manifest|)) == [Last(manifest)]
  {
  }

  /**
   Whether an entry is a candidate: with a preset given, its preset must be
   exactly that one; otherwise its preset must map to the container.
   */
  predicate Selects(args: Args, e: Entry) {
    if args.preset != "" then e.preset == args.preset
    else ContainerOf(e.preset) == Some(args.container)
  }

  /** The candidates: the entries of the window that `Selects` keeps, in window order. */
  function Candidates(args: Args, window: seq<Entry>): (c: seq<Entry>)
    ensures forall e :: e in c <==> e in window && Selects(args, e)
  {
    Filter(e => Selects(args, e), window)
  }

  /**
   With no preset given, an entry is a candidate exactly when its preset has
   the container's prefix; an empty or unprefixed preset is never one.
   */
  lemma SelectsByPrefix(args: Args, e: Entry)
    requires args.preset == ""
    ensures args.container == "hero" ==> (Selects(args, e) <==> StartsWith(e.preset, "hero_"))
    ensures args.container == "slider" ==> (Selects(args, e) <==> StartsWith(e.preset, "slider_"))
    ensures args.container == "product" ==> (Selects(args, e) <==> StartsWith(e.preset, "product_"))
    ensures ContainerOf(e.preset).None? ==> !Selects(args, e)
  {
  }

  /** `pickFile(entry)`: the first file, or `''` when there is none. */
  function PickFile(e: Entry): (f: string)
    ensures |e.files| > 0 ==> f == e.files[0]
    ensures |e.files| == 0 ==> f == ""
  {
    if |e.files| > 0 then e.files[0] else ""
  }

  /**
   The content item of an entry: its first file, `alt || prompt || ''`, the
   description or `null`, its keywords, and its creation time.
   */
  function ItemOf(e: Entry): (item: ContentItem)
    ensures item.file == PickFile(e)
    ensures IsTruthy(e.alt) ==> item.alt == e.alt.value
    ensures !IsTruthy(e.alt) ==> item.alt == e.prompt
    ensures item.description == OrNull(e.description)
    ensures item.keywords == e.keywords && item.generatedAt == e.createdAt
  {
    ContentItem(PickFile(e), if IsTruthy(e.alt) then e.alt.value else e.prompt,
                OrNull(e.description), e.keywords, e.createdAt)
  }

  function ItemsOf(es: seq<Entry>): (items: seq<ContentItem>)
    ensures |items| == |es|
    ensures forall i :: 0 <= i < |es| ==> items[i] == ItemOf(es[i])
  {
    seq(|es|, i requires 0 <= i < |es| => ItemOf(es[i]))
  }

  predicate HasFile(item: ContentItem) {
    item.file != ""
  }

  predicate EntryHasFile(e: Entry) {
    PickFile(e) != ""
  }

  /** The slider list: the items of all candidates, in order, without those lacking a file. */
  function SliderItems(candidates: seq<Entry>): (items: seq<ContentItem>)
    ensures forall i :: 0 <= i < |items| ==> items[i].file != ""
  {
    Filter(HasFile, ItemsOf(candidates))
  }

  lemma ItemsOfSnoc(es: seq<Entry>, e: Entry)
    ensures ItemsOf(es + [e]) == ItemsOf(es) + [ItemOf(e)]
  {
  }

  /**
   The slider list is the list of items of exactly those candidates whose
   first file exists and is not empty.
   */
  lemma {:induction false} SliderItemsOfFiledEntries(candidates: seq<Entry>)
    ensures SliderItems(candidates) == ItemsOf(Filter(EntryHasFile, candidates))
    decreases |candidates|
  {
    if candidates != [] {
      var init, e := DropLast(candidates), Last(candidates);
      assert candidates == init + [e];
      SliderItemsOfFiledEntries(init);
      SliderItemsSnoc(init, e);
      FilterSnoc(EntryHasFile, init, e);
      if EntryHasFile(e) {
        ItemsOfSnoc(Filter(EntryHasFile, init), e);
      }
    }
  }

  /** One more candidate adds its item to the slider list exactly when it has a file. */
  lemma SliderItemsSnoc(init: seq<Entry>, e: Entry)
    ensures SliderItems(init + [e]) == SliderItems(init) + (if EntryHasFile(e) then [ItemOf(e)] else [])
  {
    ItemsOfSnoc(init, e);
    FilterSnoc(HasFile, ItemsOf(init), ItemOf(e));
  }

  /** `argv.page` with one trailing `/` removed, if there is one. */
  function PageKey(page: string): (key: string)
    ensures EndsWith(page, "/") ==> key + "/" == page
    ensures !EndsWith(page, "/") ==> key == page
  {
    if EndsWith(page, "/") then page[..|page| - 1] else page
  }

  /** Only one slash goes: `/shop//` is stored under `/shop/`. */
  lemma PageKeyStripsOneSlash()
    ensures PageKey("/shop//") == "/shop/"
    ensures PageKey("/shop") == "/shop"
    ensures PageKey("/") == ""
  {
  }

  /**
   The database after writing `slot` into container `container` of page
   `key`; a page not yet present starts empty.
   */
  function WriteSlot(db: Db, key: string, container: string, slot: Slot): (r: Db)
    ensures r.Keys == db.Keys + {key}
    ensures forall p :: p in db && p != key ==> r[p] == db[p]
    ensures r[key].Keys == (if key in db then db[key].Keys else {}) + {container}
    ensures r[key][container] == slot
    ensures forall c :: key in db && c in db[key] && c != container ==> r[key][c] == db[key][c]
  {
    var page := if key in db then db[key] else map[];
    db[key := page[container := slot]]
  }

  /** The slot the arguments would write for these candidates, or why there is none. */
  function SlotFor(args: Args, candidates: seq<Entry>): (r: Result<Slot, LinkError>)
    requires candidates != []
    ensures args.container == "slider" ==>
      r == (if SliderItems(candidates) == [] then Err(NoFiles) else Ok(List(SliderItems(candidates))))
    ensures args.container != "slider" ==>
      r == (if PickFile(Last(candidates)) == "" then Err(NoFileInLast) else Ok(Single(ItemOf(Last(candidates)))))
  {
    if args.container == "slider" then
      var items := SliderItems(candidates);
      if items == [] then Err(NoFiles) else Ok(List(items))
    else
      var last := Last(candidates);
      if PickFile(last) == "" then Err(NoFileInLast) else Ok(Single(ItemOf(last)))
  }

  /** The candidates the arguments select from a manifest. */
  function Selected(manifest: seq<Entry>, args: Args): seq<Entry> {
    Candidates(args, Window(manifest, Start(args.fromIndex, |manifest|)))
  }

  /**
   One linking run. `db` is the stored database, `None` when the file does
   not exist. The result is the database written back, or the reason the run
   stopped without writing.
   */
  function Link(manifest: seq<Entry>, db: Option<Db>, args: Args): (r: Result<Db, LinkError>)
    ensures Window(manifest, Start(args.fromIndex, |manifest|)) == [] ==> r == Err(NoNewEntries)
    ensures Window(manifest, Start(args.fromIndex, |manifest|)) != [] && Selected(manifest, args) == [] ==>
      r == Err(NoMatch)
    ensures r.Ok? ==>
      && Selected(manifest, args) != []
      && SlotFor(args, Selected(manifest, args)).Ok?
      && r.value == WriteSlot(db.GetOr(map[]), PageKey(args.page), args.container,
                              SlotFor(args, Selected(manifest, args)).value)
    ensures Window(manifest, Start(args.fromIndex, |manifest|)) != [] && Selected(manifest, args) != [] ==>
      r == match SlotFor(args, Selected(manifest, args))
           case Ok(slot) => Ok(WriteSlot(db.GetOr(map[]), PageKey(args.page), args.container, slot))
           case Err(e) => Err(e)
    ensures r.Err? ==> r.error in {NoNewEntries, NoMatch, NoFiles, NoFileInLast}
  {
    var window := Window(manifest, Start(args.fromIndex, |manifest|));
    if window == [] then Err(NoNewEntries)
    else
      var candidates := Candidates(args, window);
      if candidates == [] then Err(NoMatch)
      else
        match SlotFor(args, candidates)
        case Err(e) => Err(e)
        case Ok(slot) => Ok(WriteSlot(db.GetOr(map[]), PageKey(args.page), args.container, slot))
  }

  /** Every candidate comes from the window: no entry before the start index is ever linked. */
  lemma CandidatesFromWindow(manifest: seq<Entry>, args: Args)
    ensures forall e :: e in Selected(manifest, args) ==>
      var start := Start(args.fromIndex, |manifest|);
      start < |manifest| && e in manifest[start..]
  {
  }

  /**
   A run either fails on any database or succeeds on any database, and what
   it writes into its slot does not depend on the database.
   */
  lemma LinkSlotIndependent(manifest: seq<Entry>, db1: Option<Db>, db2: Option<Db>, args: Args)
    ensures Link(manifest, db1, args).Ok? == Link(manifest, db2, args).Ok?
    ensures Link(manifest, db1, args).Err? ==> Link(manifest, db1, args) == Link(manifest, db2, args)
    ensures Link(manifest, db1, args).Ok? ==>
      var key := PageKey(args.page);
      Link(manifest, db1, args).value[key][args.container] == Link(manifest, db2, args).value[key][args.container]
  {
  }

  /** Linking again with the same manifest and arguments changes nothing more. */
  lemma LinkIdempotent(manifest: seq<Entry>, db: Option<Db>, args: Args)
    requires Link(manifest, db, args).Ok?
    ensures Link(manifest, Some(Link(manifest, db, args).value), args) == Link(manifest, db, args)
  {
    var once := Link(manifest, db, args).value;
    var twice := Link(manifest, Some(once), args).value;
    var key := PageKey(args.page);
    assert twice.Keys == once.Keys;
    assert twice[key] == once[key];
    assert twice == once;
  }

  /** A manifest entry with only a preset and files set. */
  function Sample(preset: string, file: string): Entry {
    Entry(preset, "", [file], "", None, None, None, None, [])
  }

  lemma SampleSelected(m: seq<Entry>, args: Args)
    requires args.fromIndex == 0
    requires forall i :: 0 <= i < |m| ==> Selects(args, m[i])
    ensures Selected(m, args) == m
  {
    assert Window(m, 0) == m;
    FilterAll(e => Selects(args, e), m);
  }

  /**
   A slider links every candidate, in order: two slider entries linked to
   `/shop` from index 0 become a list of their two files.
   */
  lemma SliderExample()
    ensures var m := [Sample("slider_x", "a.jpg"), Sample("slider_x", "b.jpg")];
      var r := Link(m, None, Args("/shop", "slider", "", 0));
      && r.Ok?
      && r.value["/shop"]["slider"] == List([ItemOf(m[0]), ItemOf(m[1])])
      && ItemOf(m[0]).file == "a.jpg" && ItemOf(m[1]).file == "b.jpg"
  {
    var m := [Sample("slider_x", "a.jpg"), Sample("slider_x", "b.jpg")];
    var args := Args("/shop", "slider", "", 0);
    assert StartsWith("slider_x", "slider_");
    SampleSelected(m, args);
    var items := ItemsOf(m);
    assert items == [ItemOf(m[0]), ItemOf(m[1])];
    FilterAll(HasFile, items);
    assert SliderItems(m) == items;
    assert PageKey("/shop") == "/shop";
  }

  /** A hero takes only the last candidate: of the same two entries, `b.jpg`. */
  lemma HeroExample()
    ensures var m := [Sample("hero_x", "a.jpg"), Sample("hero_x", "b.jpg")];
      var r := Link(m, None, Args("/shop", "hero", "", 0));
      && r.Ok?
      && r.value["/shop"]["hero"] == Single(ItemOf(m[1]))
      && ItemOf(m[1]).file == "b.jpg"
  {
    var m := [Sample("hero_x", "a.jpg"), Sample("hero_x", "b.jpg")];
    var args := Args("/shop", "hero", "", 0);
    assert StartsWith("hero_x", "hero_");
    SampleSelected(m, args);
    assert PageKey("/shop") == "/shop";
  }
}

=== FILE: edit.dfy ===
/**
 The product-photo batch of `src/edit.js`. Every image file of the input
 directory, in listing order, goes through three tiers until one gives an
 image: a remote edit, a local background removal (only in `isolate-white`
 mode) and, as a last resort, a remote generation of a neutral studio image.
 The image is then encoded at two fixed sizes in three formats. Failures of
 the first two tiers fall through; a failure of the last resort or of the
 encoder is not caught, so it ends the batch.
 */
module Edit {
  import opened Results
  import opened Seqs
  import opened Strings
  import opened Utils
  import opened Postprocess
  import opened OpenAI

  const DefaultInDir := "input/product"
  const DefaultOutDir := "public/img/product"
  const IsolateWhite := "isolate-white"
  const ProductTransparent := "product_transparent"

  const IsolatePrompt :=
    "Isolate product on pure white background with a soft natural shadow; preserve exact proportions and labels"
  const EnhancePrompt := "Enhance product realism and lighting"
  const StudioPrompt := "studio product photography of a generic glass item on pure white, soft shadow"

  /** The input directory, the output directory and the mode. */
  datatype Settings = Settings(inDir: string, outDir: string, mode: string)

  /** The three positional arguments, each with its default. */
  function SettingsOf(inDir: Option<string>, outDir: Option<string>, mode: Option<string>): (s: Settings)
    ensures s.inDir == OrElse(inDir, DefaultInDir)
    ensures s.outDir == OrElse(outDir, DefaultOutDir)
    ensures s.mode == OrElse(mode, IsolateWhite)
  {
    Settings(OrElse(inDir, DefaultInDir), OrElse(outDir, DefaultOutDir), OrElse(mode, IsolateWhite))
  }

  // ---------------------------------------------------------------------------
  // Which files are processed

  /** How the `i` flag of a regular expression compares ASCII letters: case folded. */
  function FoldAscii(c: char): (r: char)
    ensures IsUpperAscii(c) ==> r == (c as int + 32) as char
    ensures !IsUpperAscii(c) ==> r == c
  {
    if IsUpperAscii(c) then (c as int + 32) as char else c
  }

  /** `f` ends with a dot and then `ext`, letter case aside. */
  predicate EndsWithExtension(f: string, ext: string) {
    && |f| > |ext|
    && f[|f| - |ext| - 1] == '.'
    && forall k :: 0 <= k < |ext| ==> FoldAscii(f[|f| - |ext| + k]) == ext[k]
  }

  /** The test `/\.(png|jpe?g|webp)$/i`. */
  predicate IsImageName(f: string) {
    EndsWithExtension(f, "png") || EndsWithExtension(f, "jpg") ||
    EndsWithExtension(f, "jpeg") || EndsWithExtension(f, "webp")
  }

  /** The files processed: the image names of the listing, in listing order. */
  function ImageFiles(listing: seq<string>): (files: seq<string>)
    ensures forall f :: f in files <==> f in listing && IsImageName(f)
  {
    Filter(IsImageName, listing)
  }

  lemma ImageNameExamples()
    ensures IsImageName("shot.PNG") && IsImageName("shot.Jpeg") && IsImageName(".webp")
    ensures !IsImageName("shot.gif") && !IsImageName("png") && !IsImageName("shot.png.txt")
  {
    assert EndsWithExtension("shot.PNG", "png");
    assert EndsWithExtension("shot.Jpeg", "jpeg");
    assert EndsWithExtension(".webp", "webp");
    var gif, txt := "shot.gif", "shot.png.txt";
    assert gif[3] != '.' && txt[7] != '.';
    NotExtension(gif, "png", 0);
    NotExtension(gif, "jpg", 0);
    NotExtension(txt, "png", 0);
    NotExtension(txt, "jpg", 0);
  }

  lemma NotExtension(f: string, ext: string, k: nat)
    requires |f| > |ext| && k < |ext|
    requires FoldAscii(f[|f| - |ext| + k]) != ext[k]
    ensures !EndsWithExtension(f, ext)
  {
  }

  /** The index of the last `c` in `s`, or -1 when there is none. */
  function LastIndexOf(s: string, c: char): (r: int)
    ensures -1 <= r < |s|
    ensures r >= 0 ==> s[r] == c
    ensures forall k :: r < k < |s| ==> s[k] != c
    decreases |s|
  {
    if s == [] then -1
    else if Last(s) == c then |s| - 1
    else
      var r := LastIndexOf(DropLast(s), c);
      assert forall k :: r < k < |s| - 1 ==> s[k] == DropLast(s)[k];
      r
  }

  /**
   `path.basename(f, path.extname(f))` for a file name without a directory:
   the name without its last `.` part, except when that dot is the first
   character, which node treats as a hidden file without an extension.
   */
  function Stem(f: string): (r: string)
    ensures StartsWith(f, r)
  {
    var dot := LastIndexOf(f, '.');
    if dot <= 0 then f else f[..dot]
  }

  /**
   The stem of an image file is its name with the matched extension cut off,
   or the whole name when nothing precedes the dot.
   */
  lemma StemOfImage(f: string, ext: string)
    requires ext in ["png", "jpg", "jpeg", "webp"]
    requires EndsWithExtension(f, ext)
    ensures Stem(f) == if |f| == |ext| + 1 then f else f[..|f| - |ext| - 1]
  {
    var dot := |f| - |ext| - 1;
    forall k | dot < k < |f| ensures f[k] != '.' {
      assert FoldAscii(f[k]) == ext[k - dot - 1];
    }
    assert f[dot] == '.';
    assert LastIndexOf(f, '.') == dot;
  }

  // ---------------------------------------------------------------------------
  // The tier chain

  /** The edit prompt is the isolate text exactly in `isolate-white` mode. */
  function EditPrompt(mode: string): (p: string)
    ensures p == IsolatePrompt <==> mode == IsolateWhite
    ensures p == EnhancePrompt <==> mode != IsolateWhite
  {
    if mode == IsolateWhite then IsolatePrompt else EnhancePrompt
  }

  /** The edit asks for a transparent background exactly in `product_transparent` mode. */
  function Transparent(mode: string): (t: bool)
    ensures t <==> mode == ProductTransparent
  {
    mode == ProductTransparent
  }

  /** The API key and the `OPENAI_MAX_RETRIES` setting (`None` when unset or not a number) of every provider call. */
  datatype Env = Env(key: Option<string>, maxRetries: Option<int>)

  /**
   What the outside world does for one input file: the edit service's answer
   per attempt, the background remover's result, the generation service's
   answer per attempt, whether the encoder accepts the image, and the ISO
   time `ts()` reads for the output name.
   */
  datatype FileWorld = FileWorld(
    editApi: nat -> Result<Image, string>,
    removal: Result<Image, string>,
    generateApi: nat -> Result<seq<Image>, string>,
    encodes: bool,
    nameClock: string)

  datatype Tier = RemoteEdit | BackgroundRemoval | LastResort

  /** Why a file ended the batch. */
  datatype StopReason =
    | GenerateFailed(error: ProviderError)   // the last resort threw
    | NoImageGenerated                         // the last resort returned no image
    | EncodeFailed                             // the encoder threw

  /** The edit request of the mode, as `editOpenAI` builds it. */
  function EditCall(env: Env, mode: string, w: FileWorld): (c: Call<Image>)
    ensures !IsTruthy(env.key) ==> c == Call(None, Err(MissingCredentials), [])
    ensures IsTruthy(env.key) ==> c.request == Some(EditParams(EditPrompt(mode), Some(Square), Transparent(mode)))
  {
    EditOpenAI(env.key, env.maxRetries, EditPrompt(mode), Some(Square), Transparent(mode), w.editApi)
  }

  /** `tryOpenAIEdit`: the edited image, or nothing when the call failed for any reason. */
  function TryEdit(env: Env, mode: string, w: FileWorld): (r: Option<Image>)
    ensures r.Some? <==> EditCall(env, mode, w).outcome.Ok?
    ensures r.Some? ==> r.value == EditCall(env, mode, w).outcome.value
  {
    EditCall(env, mode, w).outcome.ToOption()
  }

  /** `generateOpenAI` for the neutral studio image. */
  function LastResortCall(env: Env, w: FileWorld): Call<seq<Image>> {
    GenerateOpenAI(env.key, env.maxRetries, StudioPrompt, Some(Square), 1, w.generateApi)
  }

  /** The tiers tried, in order, and the image of the last one or why the file stops the batch. */
  datatype ChainRun = ChainRun(tried: seq<Tier>, image: Result<Image, StopReason>)

  /**
   The degradation chain over the three tiers' results: the edited image if
   there is one; else, in `isolate-white` mode only, the background removal's
   image if it worked; else the last resort, whose first image is taken as it
   is and whose failure, or empty answer, stops the batch.
   */
  function Degrade(mode: string, edited: Option<Image>, removal: Result<Image, string>,
                   lastResort: Result<seq<Image>, ProviderError>): (c: ChainRun)
    ensures |c.tried| >= 1 && c.tried[0] == RemoteEdit
    ensures forall i, j :: 0 <= i < j < |c.tried| ==> c.tried[i] != c.tried[j]
    ensures BackgroundRemoval in c.tried <==> edited.None? && mode == IsolateWhite
    ensures LastResort in c.tried <==> edited.None? && (mode != IsolateWhite || removal.Err?)
    ensures Last(c.tried) == RemoteEdit ==> edited.Some? && c.image == Ok(edited.value)
    ensures Last(c.tried) == BackgroundRemoval ==> removal.Ok? && c.image == Ok(removal.value)
    ensures Last(c.tried) == LastResort ==>
      match lastResort
      case Err(e) => c.image == Err(GenerateFailed(e))
      case Ok(images) => c.image == (if images == [] then Err(NoImageGenerated) else Ok(images[0]))
    ensures c.image.Err? ==> Last(c.tried) == LastResort
  {
    if edited.Some? then ChainRun([RemoteEdit], Ok(edited.value))
    else
      var tried := if mode == IsolateWhite then [RemoteEdit, BackgroundRemoval] else [RemoteEdit];
      if mode == IsolateWhite && removal.Ok? then ChainRun(tried, Ok(removal.value))
      else
        var image := match lastResort
          case Err(e) => Err(GenerateFailed(e))
          case Ok(images) => if images == [] then Err(NoImageGenerated) else Ok(images[0]);
        ChainRun(tried + [LastResort], image)
  }

  /** The chain of one file, with the calls `edit.js` makes. */
  function Chain(env: Env, mode: string, w: FileWorld): (c: ChainRun)
    ensures TryEdit(env, mode, w).Some? ==> c == ChainRun([RemoteEdit], Ok(TryEdit(env, mode, w).value))
    ensures BackgroundRemoval in c.tried <==> TryEdit(env, mode, w).None? && mode == IsolateWhite
    ensures LastResort in c.tried <==> TryEdit(env, mode, w).None? && (mode != IsolateWhite || w.removal.Err?)
    ensures c.image.Err? ==>
      LastResort in c.tried && (LastResortCall(env, w).outcome.Err? || LastResortCall(env, w).outcome == Ok([]))
  {
    Degrade(mode, TryEdit(env, mode, w), w.removal, LastResortCall(env, w).outcome)
  }

  /**
   Without an API key the edit gives nothing: in `isolate-white` mode a
   background removal that works supplies the image, and in any other mode
   the last resort fails for the same missing key and the batch stops.
   */
  lemma NoKeyFallsThrough(env: Env, mode: string, w: FileWorld)
    requires !IsTruthy(env.key)
    ensures mode == IsolateWhite && w.removal.Ok? ==>
      Chain(env, mode, w) == ChainRun([RemoteEdit, BackgroundRemoval], Ok(w.removal.value))
    ensures mode != IsolateWhite ==>
      Chain(env, mode, w) == ChainRun([RemoteEdit, LastResort], Err(GenerateFailed(MissingCredentials)))
  {
    assert TryEdit(env, mode, w).None?;
    assert LastResortCall(env, w).outcome == Err(MissingCredentials);
  }

  // ---------------------------------------------------------------------------
  // Encoding and the batch

  const EditSizes: seq<Size> := [Size(1200, 1200), Size(800, 800)]
  const EditFormats: seq<string> := ["jpg", "webp", "png"]
  const EditQuality: int := 92

  /** The encoder options of every file: fixed sizes, formats and quality, placeholders on by default. */
  function EditOptions(outDir: string, baseName: string): Options {
    Options(outDir, baseName, Some(EditSizes), Some(EditFormats), Some(EditQuality), None)
  }

  lemma KnownEditFormats()
    ensures KnownFormats(EditFormats) == EditFormats
  {
    assert forall j :: 0 <= j < |EditFormats| ==> IsKnownFormat(EditFormats[j]);
    FilterAll(IsKnownFormat, EditFormats);
  }

  /** The six files of one output name, in the order they are written. */
  function EditOutputs(outDir: string, baseName: string): seq<Output> {
    var big, small := Size(1200, 1200), Size(800, 800);
    [ Output(FilePath(outDir, baseName, big, "jpg"), Jpeg(92, true)),
      Output(FilePath(outDir, baseName, big, "webp"), Webp(92)),
      Output(FilePath(outDir, baseName, big, "png"), Png),
      Output(FilePath(outDir, baseName, small, "jpg"), Jpeg(92, true)),
      Output(FilePath(outDir, baseName, small, "webp"), Webp(92)),
      Output(FilePath(outDir, baseName, small, "png"), Png) ]
  }

  /** The three files of one size: JPEG, WebP and PNG. */
  lemma SizeOutputsOfEdit(outDir: string, baseName: string, size: Size)
    ensures SizeOutputs(outDir, baseName, size, EditFormats, EditQuality) ==
      [ Output(FilePath(outDir, baseName, size, "jpg"), Jpeg(92, true)),
        Output(FilePath(outDir, baseName, size, "webp"), Webp(92)),
        Output(FilePath(outDir, baseName, size, "png"), Png) ]
  {
  }

  /** The files of two sizes: the first size's, then the second's. */
  lemma AllOutputsOfTwo(outDir: string, baseName: string, first: Size, second: Size, known: seq<string>, q: int)
    requires forall j :: 0 <= j < |known| ==> IsKnownFormat(known[j])
    ensures AllOutputs(outDir, baseName, [first, second], known, q)
      == SizeOutputs(outDir, baseName, first, known, q) + SizeOutputs(outDir, baseName, second, known, q)
  {
    AllOutputsOfOne(outDir, baseName, first, known, q);
    assert DropLast([first, second]) == [first] && Last([first, second]) == second;
  }

  /** The files of one size. */
  lemma AllOutputsOfOne(outDir: string, baseName: string, size: Size, known: seq<string>, q: int)
    requires forall j :: 0 <= j < |known| ==> IsKnownFormat(known[j])
    ensures AllOutputs(outDir, baseName, [size], known, q) == SizeOutputs(outDir, baseName, size, known, q)
  {
    var one := SizeOutputs(outDir, baseName, size, known, q);
    assert DropLast([size]) == [] && Last([size]) == size;
    assert [] + one == one;
  }

  /** Both sizes' files, the larger size first. */
  lemma EditAllOutputs(outDir: string, baseName: string)
    ensures AllOutputs(outDir, baseName, EditSizes, EditFormats, EditQuality) == EditOutputs(outDir, baseName)
  {
    var big, small := Size(1200, 1200), Size(800, 800);
    AllOutputsOfTwo(outDir, baseName, big, small, EditFormats, EditQuality);
    SizeOutputsOfEdit(outDir, baseName, big);
    SizeOutputsOfEdit(outDir, baseName, small);
  }

  /**
   Every file is written six times, size-major: JPEG, WebP and PNG at
   1200x1200, then at 800x800, JPEG and WebP at quality 92.
   */
  lemma EditPlanOutputs(outDir: string, baseName: string)
    ensures SaveMultiFormats(EditOptions(outDir, baseName)).outputs == EditOutputs(outDir, baseName)
  {
    var o := EditOptions(outDir, baseName);
    SaveMultiFormatsParts(o);
    KnownEditFormats();
    EditAllOutputs(outDir, baseName);
  }

  /** In six files of which the first and the fourth are the JPEGs, those two get placeholders. */
  lemma SidecarsOfSix(out: seq<Output>)
    requires |out| == 6
    requires out[0].encoding.Jpeg? && out[3].encoding.Jpeg?
    requires !out[1].encoding.Jpeg? && !out[2].encoding.Jpeg? && !out[4].encoding.Jpeg? && !out[5].encoding.Jpeg?
    ensures Sidecars(out, true) == [out[0].path + LqipSuffix, out[3].path + LqipSuffix]
  {
    var first, second := out[0].path + LqipSuffix, out[3].path + LqipSuffix;
    assert Sidecars(out[..1], true) == [first] by {
      assert DropLast(out[..1]) == [] && Last(out[..1]) == out[0];
    }
    assert Sidecars(out[..2], true) == [first] by {
      assert DropLast(out[..2]) == out[..1] && Last(out[..2]) == out[1];
    }
    assert Sidecars(out[..3], true) == [first] by {
      assert DropLast(out[..3]) == out[..2] && Last(out[..3]) == out[2];
    }
    assert Sidecars(out[..4], true) == [first, second] by {
      assert DropLast(out[..4]) == out[..3] && Last(out[..4]) == out[3];
    }
    assert Sidecars(out[..5], true) == [first, second] by {
      assert DropLast(out[..5]) == out[..4] && Last(out[..5]) == out[4];
    }
    assert DropLast(out) == out[..5] && Last(out) == out[5];
  }

  /** A placeholder follows each of the two JPEG files, and nothing else has one. */
  lemma EditPlanSidecars(outDir: string, baseName: string)
    ensures var out := EditOutputs(outDir, baseName);
      SaveMultiFormats(EditOptions(outDir, baseName)).sidecars == [out[0].path + LqipSuffix, out[3].path + LqipSuffix]
  {
    var o := EditOptions(outDir, baseName);
    SaveMultiFormatsParts(o);
    EditPlanOutputs(outDir, baseName);
    SidecarsOfSix(EditOutputs(outDir, baseName));
  }

  /** How one file ended: encoded from the image of a tier, or the reason the batch stops. */
  datatype FileOutcome =
    | Encoded(tier: Tier, image: Image, baseName: string, plan: Plan)
    | Stopped(reason: StopReason)

  /** One input file of the batch: the tiers tried and how it ended. */
  datatype FileRun = FileRun(file: string, tried: seq<Tier>, outcome: FileOutcome)

  /** The prefix of every edited file's output name. */
  const OutputPrefix := "product"

  /** The output name `fileStem(stem, 'product')` of an input file. */
  function OutputName(f: string, stamp: string): (r: string)
    ensures StartsWith(r, OutputPrefix + "-") && EndsWith(r, "-" + stamp)
    ensures |OutputPrefix| + |stamp| + 2 <= |r|
    ensures r[|OutputPrefix| + 1..|r| - |stamp| - 1] == Take(Slug(Stem(f)), StemSlugLength)
  {
    FileStem(Stem(f), OutputPrefix, stamp)
  }

  /**
   One file after its chain: encoded with the fixed options under its output
   name exactly when a tier gave an image and the encoder accepts it.
   */
  function Finish(outDir: string, f: string, chain: ChainRun, encodes: bool, stamp: string): (r: FileRun)
    requires chain.tried != []
    ensures r.file == f && r.tried == chain.tried
    ensures r.outcome.Encoded? <==> chain.image.Ok? && encodes
    ensures r.outcome.Encoded? ==>
      && r.outcome.tier == Last(chain.tried)
      && r.outcome.image == chain.image.value
      && r.outcome.baseName == OutputName(f, stamp)
      && r.outcome.plan == SaveMultiFormats(EditOptions(outDir, OutputName(f, stamp)))
    ensures chain.image.Err? ==> r.outcome == Stopped(chain.image.error)
    ensures chain.image.Ok? && !encodes ==> r.outcome == Stopped(EncodeFailed)
  {
    match chain.image
    case Err(reason) => FileRun(f, chain.tried, Stopped(reason))
    case Ok(image) =>
      if !encodes then FileRun(f, chain.tried, Stopped(EncodeFailed))
      else
        var name := OutputName(f, stamp);
        FileRun(f, chain.tried, Encoded(Last(chain.tried), image, name, SaveMultiFormats(EditOptions(outDir, name))))
  }

  /** One file of the batch: its chain, then the encoder. */
  function ProcessFile(env: Env, s: Settings, f: string, w: FileWorld): (r: FileRun)
    ensures r.file == f && r.tried == Chain(env, s.mode, w).tried
    ensures r.outcome.Encoded? <==> Chain(env, s.mode, w).image.Ok? && w.encodes
    ensures r.outcome.Encoded? ==>
      && r.outcome.baseName == OutputName(f, Ts(w.nameClock))
      && r.outcome.plan == SaveMultiFormats(EditOptions(s.outDir, OutputName(f, Ts(w.nameClock))))
  {
    Finish(s.outDir, f, Chain(env, s.mode, w), w.encodes, Ts(w.nameClock))
  }

  /**
   The runs up to and including the first one that stops: an uncaught error
   ends the loop, so no later file is processed.
   */
  function UpToFirstStop(runs: seq<FileRun>): (r: seq<FileRun>)
    ensures |r| <= |runs| && r == runs[..|r|]
    ensures forall k :: 0 <= k < |r| - 1 ==> r[k].outcome.Encoded?
    ensures |r| < |runs| ==> r != [] && Last(r).outcome.Stopped?
    decreases |runs|
  {
    if runs == [] then []
    else if runs[0].outcome.Stopped? then [runs[0]]
    else
      var rest := UpToFirstStop(runs[1..]);
      assert runs[..|rest| + 1] == [runs[0]] + runs[1..][..|rest|];
      [runs[0]] + rest
  }

  /** When no run stops, all of them are kept. */
  lemma {:induction false} UpToFirstStopAll(runs: seq<FileRun>)
    requires forall k :: 0 <= k < |runs| ==> runs[k].outcome.Encoded?
    ensures UpToFirstStop(runs) == runs
    decreases |runs|
  {
    if runs != [] {
      UpToFirstStopAll(runs[1..]);
      assert runs == [runs[0]] + runs[1..];
    }
  }

  /**
   The whole run: the image files of the listing, in listing order, each
   against its own world (`world(k)` belongs to the `k`-th image file), up to
   the first file that stops the batch.
   */
  function EditBatch(env: Env, inDir: Option<string>, outDir: Option<string>, mode: Option<string>,
                     listing: seq<string>, world: nat -> FileWorld): (runs: seq<FileRun>)
    ensures var files := ImageFiles(listing);
      && |runs| <= |files|
      && (forall k :: 0 <= k < |runs| ==>
            runs[k] == ProcessFile(env, SettingsOf(inDir, outDir, mode), files[k], world(k)))
      && (forall k :: 0 <= k < |runs| - 1 ==> runs[k].outcome.Encoded?)
      && (|runs| < |files| ==> runs != [] && Last(runs).outcome.Stopped?)
  {
    UpToFirstStop(FileRuns(env, SettingsOf(inDir, outDir, mode), ImageFiles(listing), world))
  }

  /** Every image file processed against its own world, ignoring stops. */
  function FileRuns(env: Env, s: Settings, files: seq<string>, world: nat -> FileWorld): (all: seq<FileRun>)
    ensures |all| == |files|
    ensures forall k :: 0 <= k < |files| ==> all[k] == ProcessFile(env, s, files[k], world(k))
  {
    seq(|files|, k requires 0 <= k < |files| => ProcessFile(env, s, files[k], world(k)))
  }
}

=== FILE: generate.dfy ===
/**
 The generation driver of `src/index.js`: it checks the configuration
 (API key, preset, prompt) before any request, composes the final prompt,
 generates the images under `retry`, encodes every returned image under a
 numbered output name and appends one manifest entry per image, once, at the
 end. The process exits are modelled as a failed run; the manifest is only
 part of a completed run.
 */
module Generate {
  import opened Results
  import opened Seqs
  import opened Strings
  import opened Utils
  import opened Manifest
  import opened Postprocess
  import opened OpenAI

  datatype Style = Style(base: string, negative: string)

  /** The generation options of a preset; `count` is `None` when unset or not a number. */
  datatype PresetOptions = PresetOptions(size: Option<string>, count: Option<int>)

  /** A preset of `config/presets.json`, already validated. */
  datatype Preset = Preset(
    style: Style,
    options: PresetOptions,
    outputSubdir: Option<string>,
    sizes: Option<seq<Size>>,
    formats: Option<seq<string>>,
    quality: Option<int>)

  /** The prompt and its page metadata, from `--prompt` or from a `--meta` file. */
  datatype Meta = Meta(
    prompt: Option<string>,
    page: Option<string>,
    container: Option<string>,
    alt: Option<string>,
    description: Option<string>,
    keywords: Option<seq<string>>)

  /** `--meta`: not given, or given with its parsed content (`None` when it cannot be read or parsed). */
  datatype MetaSource = NoMetaFile | MetaFile(parsed: Option<Meta>)

  /** The command line; `count` is `None` when not given. */
  datatype Argv = Argv(preset: string, prompt: Option<string>, count: Option<int>, meta: MetaSource)

  /** Why a run exits with status 1. */
  datatype Failure =
    | MissingKey
    | UnknownPreset
    | InvalidMeta
    | PromptMissing
    | GenerateFailed(error: ProviderError)
    | EncodeFailed(index: nat)

  predicate IsConfigFailure(f: Failure) {
    f.MissingKey? || f.UnknownPreset? || f.InvalidMeta? || f.PromptMissing?
  }

  /** A run whose configuration checks passed: the preset and a metadata object with a truthy prompt. */
  datatype Job = Job(presetName: string, preset: Preset, meta: Meta, prompt: string)

  /**
   The metadata: the `--meta` file's content when one is given, which then
   replaces `--prompt` entirely, and otherwise just `--prompt`.
   */
  function MetaOf(argv: Argv): (r: Result<Meta, Failure>)
    ensures argv.meta.NoMetaFile? ==> r == Ok(Meta(argv.prompt, None, None, None, None, None))
    ensures argv.meta.MetaFile? && argv.meta.parsed.None? ==> r == Err(InvalidMeta)
    ensures argv.meta.MetaFile? && argv.meta.parsed.Some? ==> r == Ok(argv.meta.parsed.value)
  {
    match argv.meta
    case NoMetaFile => Ok(Meta(argv.prompt, None, None, None, None, None))
    case MetaFile(parsed) => if parsed.None? then Err(InvalidMeta) else Ok(parsed.value)
  }

  /**
   The checks before any request, in the order the script makes them: the
   API key, the preset, the `--meta` file and the prompt.
   */
  function Resolve(key: Option<string>, presets: map<string, Preset>, argv: Argv): (r: Result<Job, Failure>)
    ensures r.Err? ==> IsConfigFailure(r.error)
    ensures !IsTruthy(key) ==> r == Err(MissingKey)
    ensures IsTruthy(key) && argv.preset !in presets ==> r == Err(UnknownPreset)
    ensures IsTruthy(key) && argv.preset in presets && MetaOf(argv).Err? ==> r == Err(InvalidMeta)
    ensures IsTruthy(key) && argv.preset in presets && MetaOf(argv).Ok? && !IsTruthy(MetaOf(argv).value.prompt) ==>
      r == Err(PromptMissing)
    ensures r.Ok? <==> IsTruthy(key) && argv.preset in presets && MetaOf(argv).Ok? && IsTruthy(MetaOf(argv).value.prompt)
    ensures r.Ok? ==> r.value == Job(argv.preset, presets[argv.preset], MetaOf(argv).value, MetaOf(argv).value.prompt.value)
  {
    if !IsTruthy(key) then Err(MissingKey)
    else if argv.preset !in presets then Err(UnknownPreset)
    else match MetaOf(argv)
      case Err(e) => Err(e)
      case Ok(meta) =>
        if !IsTruthy(meta.prompt) then Err(PromptMissing)
        else Ok(Job(argv.preset, presets[argv.preset], meta, meta.prompt.value))
  }

  /** `"{prompt}. Style: {base}. Avoid: {negative}."` */
  function FinalPrompt(prompt: string, style: Style): (r: string)
    ensures StartsWith(r, prompt + ". Style: " + style.base)
    ensures EndsWith(r, ". Avoid: " + style.negative + ".")
    ensures |r| == |prompt| + |style.base| + |style.negative| + 19
  {
    var head := prompt + ". Style: " + style.base;
    var tail := ". Avoid: " + style.negative + ".";
    assert StartsWith(head + tail, head);
    head + tail
  }

  /**
   `argv.count || preset.options.count || 1`: the first of the two counts
   that is neither missing nor 0, and 1 when there is none.
   */
  function Count(argvCount: Option<int>, presetCount: Option<int>): (n: int)
    ensures n != 0
    ensures argvCount.Some? && argvCount.value != 0 ==> n == argvCount.value
    ensures (argvCount.None? || argvCount.value == 0) && presetCount.Some? && presetCount.value != 0 ==>
      n == presetCount.value
    ensures (argvCount.None? || argvCount.value == 0) && (presetCount.None? || presetCount.value == 0) ==> n == 1
  {
    if argvCount.Some? && argvCount.value != 0 then argvCount.value
    else if presetCount.Some? && presetCount.value != 0 then presetCount.value
    else 1
  }

  /** An explicit count of 0 counts as not given. */
  lemma ZeroCountFallsThrough(presetCount: Option<int>)
    ensures Count(Some(0), presetCount) == Count(None, presetCount)
  {
  }

  const DefaultSubdir := "misc"

  /** `path.resolve('public', 'img', outSub)`, with `root` the resolved `public/img`. */
  function OutDir(root: string, preset: Preset): string {
    JoinPath(root, OrElse(preset.outputSubdir, DefaultSubdir))
  }

  /** The request the run sends: the final prompt, the preset's size and the count. */
  function RequestOf(job: Job, argv: Argv): (q: Request)
    ensures q.GenerateRequest?
    ensures q.prompt == FinalPrompt(job.prompt, job.preset.style)
    ensures IsAllowedSize(q.size) && q.size == RequestSize(job.preset.options.size)
    ensures q.n == Count(argv.count, job.preset.options.count)
  {
    GenerateParams(FinalPrompt(job.prompt, job.preset.style), job.preset.options.size, Count(argv.count, job.preset.options.count))
  }

  /** The two-digit counter `String(i + 1).padStart(2, '0')`. */
  function Counter(i: nat): (c: string)
    ensures |c| >= 2 && AllDigits(c)
    ensures DigitsValue(c) == i + 1
    ensures i + 1 < 10 ==> |c| == 2 && c[0] == '0'
    ensures i + 1 >= 10 ==> c == NatToString(i + 1)
  {
    var digits := NatToString(i + 1);
    var c := PadStart(digits, 2, '0');
    ZeroPadValue(digits, 2);
    assert AllDigits(c) by {
      forall k | 0 <= k < |c| ensures IsDigit(c[k]) {
        if k >= |c| - |digits| {
          assert c[k] == digits[k - (|c| - |digits|)];
        }
      }
    }
    c
  }

  /** Leading zeros do not change a number's value. */
  lemma {:induction false} LeadingZero(s: string)
    requires AllDigits(s)
    ensures AllDigits("0" + s) && DigitsValue("0" + s) == DigitsValue(s)
    decreases |s|
  {
    if s != [] {
      LeadingZero(DropLast(s));
      assert DropLast("0" + s) == "0" + DropLast(s);
      assert Last("0" + s) == Last(s);
    }
  }

  lemma {:induction false} ZeroPadValue(s: string, width: nat)
    requires AllDigits(s)
    ensures AllDigits(PadStart(s, width, '0')) && DigitsValue(PadStart(s, width, '0')) == DigitsValue(s)
    decreases width - |s|
  {
    if |s| < width {
      LeadingZero(s);
      assert ['0'] + s == "0" + s;
      ZeroPadValue("0" + s, width);
    }
  }

  /** The output name of the `i`-th image: the file stem of the raw prompt and the counter. */
  function BaseName(prompt: string, presetName: string, stamp: string, i: nat): (r: string)
    ensures StartsWith(r, presetName + "-")
    ensures EndsWith(r, "-" + Counter(i))
    ensures EndsWith(r[..|r| - |Counter(i)| - 1], "-" + stamp)
    ensures r[..|r| - |Counter(i)| - 1] == FileStem(prompt, presetName, stamp)
  {
    var stem := FileStem(prompt, presetName, stamp);
    var r := stem + ("-" + Counter(i));
    ConcatKeepsEnds(stem, "-" + Counter(i), presetName + "-", "-" + Counter(i));
    assert r[..|r| - |Counter(i)| - 1] == stem;
    r
  }

  /** What the run meets besides the provider: per image, its timestamps and whether it encodes. */
  datatype World = World(
    root: string,                   // path.resolve('public', 'img')
    nameClock: nat -> string,       // the ISO time ts() reads while naming the i-th image
    now: nat -> string,             // new Date().toISOString() for the i-th entry
    encodes: nat -> bool,           // whether the encoder accepts the i-th image
    stored: Option<seq<Entry>>,     // the manifest file, None when absent
    clock: nat -> string)           // the time updateManifest reads for the i-th entry

  /** The encoder options of the `i`-th image: the preset's sizes, formats and quality. */
  function ImageOptions(job: Job, w: World, i: nat): Options
  {
    Options(OutDir(w.root, job.preset), BaseName(job.prompt, job.presetName, Ts(w.nameClock(i)), i),
            job.preset.sizes, job.preset.formats, job.preset.quality, None)
  }

  /** The manifest record of the `i`-th image. */
  function DraftOf(job: Job, w: World, i: nat): (d: Draft)
    ensures d.preset == job.presetName && d.prompt == job.prompt
    ensures d.files == Paths(SaveMultiFormats(ImageOptions(job, w, i)))
    ensures d.createdAt == Some(w.now(i))
    ensures d.page == job.meta.page && d.container == job.meta.container && d.alt == job.meta.alt
    ensures d.description == job.meta.description && d.keywords == job.meta.keywords
  {
    var m := job.meta;
    Draft(job.presetName, job.prompt, Paths(SaveMultiFormats(ImageOptions(job, w, i))), Some(w.now(i)),
          m.page, m.container, m.alt, m.description, m.keywords)
  }

  /** The first image index below `n` the encoder rejects. */
  function FirstRejected(encodes: nat -> bool, n: nat, from: nat): (r: Option<nat>)
    ensures r.Some? ==> from <= r.value < n && !encodes(r.value)
    ensures forall k: nat :: from <= k < (if r.Some? then r.value else n) ==> encodes(k)
    decreases n - from
  {
    if from >= n then None
    else if !encodes(from) then Some(from)
    else FirstRejected(encodes, n, from + 1)
  }

  /** The provider call the run makes once its configuration is resolved. */
  function Generation(key: Option<string>, maxRetries: Option<int>, job: Job, argv: Argv,
                      api: nat -> Result<seq<Image>, string>): Call<seq<Image>>
  {
    var request := RequestOf(job, argv);
    GenerateOpenAI(key, maxRetries, request.prompt, job.preset.options.size, request.n, api)
  }

  /** How a run ends: with the request it sent, if any, and on success the new manifest. */
  datatype RunResult =
    | Failed(failure: Failure, request: Option<Request>)
    | Completed(sent: Request, drafts: seq<Draft>, manifest: seq<Entry>)

  /**
   One run of `node src/index.js`. The records are collected while the
   images are encoded in order; the manifest is appended once, after the last
   one, so a failure anywhere leaves it unwritten.
   */
  function Run(key: Option<string>, maxRetries: Option<int>, presets: map<string, Preset>, argv: Argv,
               api: nat -> Result<seq<Image>, string>, w: World): (r: RunResult)
    ensures Resolve(key, presets, argv).Err? <==> r.Failed? && r.request.None?
    ensures Resolve(key, presets, argv).Err? ==> r == Failed(Resolve(key, presets, argv).error, None)
    ensures Resolve(key, presets, argv).Ok? && r.Failed? ==>
      && !IsConfigFailure(r.failure)
      && r.request == Some(RequestOf(Resolve(key, presets, argv).value, argv))
    ensures r.Failed? && r.failure.GenerateFailed? ==>
      && Resolve(key, presets, argv).Ok?
      && Generation(key, maxRetries, Resolve(key, presets, argv).value, argv, api).outcome == Err(r.failure.error)
    ensures r.Failed? && r.failure.EncodeFailed? ==>
      && Resolve(key, presets, argv).Ok?
      && var call := Generation(key, maxRetries, Resolve(key, presets, argv).value, argv, api);
      && call.outcome.Ok?
      && r.failure.index < |call.outcome.value|
      && !w.encodes(r.failure.index)
      && (forall k: nat :: k < r.failure.index ==> w.encodes(k))
    ensures r.Completed? ==>
      && Resolve(key, presets, argv).Ok?
      && var job := Resolve(key, presets, argv).value;
      && var call := Generation(key, maxRetries, job, argv, api);
      && call.outcome.Ok?
      && |r.drafts| == |call.outcome.value|
      && (forall k: nat :: k < |r.drafts| ==> w.encodes(k))
      && r.sent == RequestOf(job, argv)
      && (forall i :: 0 <= i < |r.drafts| ==> r.drafts[i] == DraftOf(job, w, i))
      && r.manifest == Append(w.stored, r.drafts, w.clock)
  {
    match Resolve(key, presets, argv)
    case Err(e) => Failed(e, None)
    case Ok(job) =>
      var request := RequestOf(job, argv);
      match Generation(key, maxRetries, job, argv, api).outcome
      case Err(e) => Failed(GenerateFailed(e), Some(request))
      case Ok(images) =>
        Save(job, request, |images|, w)
  }

  /**
   The encoding loop over `count` returned images and the single manifest
   write after it: the first rejected image stops the run, otherwise every
   record is collected and appended.
   */
  function Save(job: Job, request: Request, count: nat, w: World): (r: RunResult)
    ensures r.Failed? ==>
      && r.failure.EncodeFailed? && r.request == Some(request)
      && r.failure.index < count
      && !w.encodes(r.failure.index)
      && (forall k: nat :: k < r.failure.index ==> w.encodes(k))
    ensures r.Completed? ==>
      && |r.drafts| == count
      && (forall k: nat :: k < count ==> w.encodes(k))
      && r.sent == request
      && (forall i :: 0 <= i < |r.drafts| ==> r.drafts[i] == DraftOf(job, w, i))
      && r.manifest == Append(w.stored, r.drafts, w.clock)
  {
    match FirstRejected(w.encodes, count, 0)
    case Some(i) => Failed(EncodeFailed(i), Some(request))
    case None =>
      var drafts := Drafts(job, w, count);
      Completed(request, drafts, Append(w.stored, drafts, w.clock))
  }

  /** The records of the first `count` images, in order. */
  function Drafts(job: Job, w: World, count: nat): (drafts: seq<Draft>)
    ensures |drafts| == count
    ensures forall i :: 0 <= i < count ==> drafts[i] == DraftOf(job, w, i)
  {
    seq(count, i requires 0 <= i < count => DraftOf(job, w, i))
  }

  /**
   A run completes exactly when the configuration resolves, the provider
   returns images and the encoder accepts every one of them.
   */
  lemma RunCompletes(key: Option<string>, maxRetries: Option<int>, presets: map<string, Preset>, argv: Argv,
                     api: nat -> Result<seq<Image>, string>, w: World)
    ensures Run(key, maxRetries, presets, argv, api, w).Completed? <==>
      && Resolve(key, presets, argv).Ok?
      && var call := Generation(key, maxRetries, Resolve(key, presets, argv).value, argv, api);
      && call.outcome.Ok?
      && (forall k: nat :: k < |call.outcome.value| ==> w.encodes(k))
  {
    if Resolve(key, presets, argv).Ok? {
      var call := Generation(key, maxRetries, Resolve(key, presets, argv).value, argv, api);
      if call.outcome.Ok? {
        var first := FirstRejected(w.encodes, |call.outcome.value|, 0);
        if first.Some? {
          assert !w.encodes(first.value);
        }
      }
    }
  }

  /**
   The `i`-th new manifest entry of a completed run records the preset, the
   prompt as given (not the styled one), the paths written for the `i`-th
   image under its numbered name, and when it was made.
   */
  lemma NewEntries(key: Option<string>, maxRetries: Option<int>, presets: map<string, Preset>, argv: Argv,
                   api: nat -> Result<seq<Image>, string>, w: World, i: nat)
    requires Run(key, maxRetries, presets, argv, api, w).Completed?
    requires i < |Run(key, maxRetries, presets, argv, api, w).drafts|
    ensures var r := Run(key, maxRetries, presets, argv, api, w);
      var job := Resolve(key, presets, argv).value;
      var e := r.manifest[|Stored(w.stored)| + i];
      && |r.manifest| == |Stored(w.stored)| + |r.drafts|
      && r.manifest[..|Stored(w.stored)|] == Stored(w.stored)
      && e.preset == argv.preset
      && e.prompt == job.meta.prompt.value
      && e.files == Paths(SaveMultiFormats(ImageOptions(job, w, i)))
      && EndsWith(ImageOptions(job, w, i).baseName, "-" + Counter(i))
      && (w.now(i) != "" ==> e.createdAt == w.now(i))
  {
    var r := Run(key, maxRetries, presets, argv, api, w);
    var job := Resolve(key, presets, argv).value;
    assert r.drafts[i] == DraftOf(job, w, i);
  }
}

=== FILE: manifest.dfy ===
/**
 `updateManifest` of `src/manifest.js`: every new record is normalised (a
 falsy creation time becomes the current time, falsy optional fields become
 `null` or `[]`) and the records are appended, in call order, after the
 manifest already stored. The stored manifest and the clock are inputs; the
 result is the manifest that gets written back.
 */
module Manifest {
  import opened Results
  import opened Strings

  /**
   A record as the generator hands it over. Optional fields are `None` when
   absent (`undefined`/`null`); `Some("")` is present but falsy.
   */
  datatype Draft = Draft(
    preset: string,
    prompt: string,
    files: seq<string>,
    createdAt: Option<string>,
    page: Option<string>,
    container: Option<string>,
    alt: Option<string>,
    description: Option<string>,
    keywords: Option<seq<string>>)

  /** A manifest entry as stored. `None` is a JSON `null`. */
  datatype Entry = Entry(
    preset: string,
    prompt: string,
    files: seq<string>,
    createdAt: string,
    page: Option<string>,
    container: Option<string>,
    alt: Option<string>,
    description: Option<string>,
    keywords: seq<string>)

  /** The shape every normalised entry has: no present-but-empty text. */
  predicate Normal(e: Entry) {
    && e.createdAt != ""
    && e.page != Some("")
    && e.container != Some("")
    && e.alt != Some("")
    && e.description != Some("")
  }

  /**
   The normalisation of one record, `now` being the clock's ISO text at that
   moment: `preset`, `prompt` and `files` are copied, a truthy `createdAt` is
   kept and a falsy one replaced by `now`, falsy `page`, `container`, `alt` and
   `description` become `null`, and missing `keywords` become `[]`.
   */
  function Normalize(d: Draft, now: string): (e: Entry)
    ensures e.preset == d.preset && e.prompt == d.prompt && e.files == d.files
    ensures IsTruthy(d.createdAt) ==> e.createdAt == d.createdAt.value
    ensures !IsTruthy(d.createdAt) ==> e.createdAt == now
    ensures e.page == (if IsTruthy(d.page) then d.page else None)
    ensures e.container == (if IsTruthy(d.container) then d.container else None)
    ensures e.alt == (if IsTruthy(d.alt) then d.alt else None)
    ensures e.description == (if IsTruthy(d.description) then d.description else None)
    ensures e.keywords == (if d.keywords.Some? then d.keywords.value else [])
    ensures now != "" ==> Normal(e)
  {
    Entry(
      d.preset,
      d.prompt,
      d.files,
      if IsTruthy(d.createdAt) then d.createdAt.value else now,
      OrNull(d.page),
      OrNull(d.container),
      OrNull(d.alt),
      OrNull(d.description),
      d.keywords.GetOr([]))
  }

  /** An entry read back as a record carrying all of its fields. */
  function ToDraft(e: Entry): Draft {
    Draft(e.preset, e.prompt, e.files, Some(e.createdAt), e.page, e.container,
          e.alt, e.description, Some(e.keywords))
  }

  /** Normalising an already normal entry again changes nothing, whatever the clock says. */
  lemma NormalizeNormal(e: Entry, now: string)
    requires Normal(e)
    ensures Normalize(ToDraft(e), now) == e
  {
  }

  /** `readJSON(path, [])`: a manifest file that does not exist reads as empty. */
  function Stored(file: Option<seq<Entry>>): (m: seq<Entry>)
    ensures file.None? ==> m == []
    ensures file.Some? ==> m == file.value
  {
    file.GetOr([])
  }

  /**
   `updateManifest`: the stored entries, untouched and in place, followed by
   one normalised entry per record, in the order given; `clock(i)` is the time
   the i-th record is normalised.
   */
  function Append(file: Option<seq<Entry>>, drafts: seq<Draft>, clock: nat -> string): (m: seq<Entry>)
    ensures |m| == |Stored(file)| + |drafts|
    ensures m[..|Stored(file)|] == Stored(file)
    ensures forall i :: 0 <= i < |drafts| ==> m[|Stored(file)| + i] == Normalize(drafts[i], clock(i))
  {
    var prior := Stored(file);
    prior + seq(|drafts|, i requires 0 <= i < |drafts| => Normalize(drafts[i], clock(i)))
  }

  /** The entry at position `k` of an updated manifest: a stored one, or a normalised new one. */
  lemma AppendAt(file: Option<seq<Entry>>, drafts: seq<Draft>, clock: nat -> string, k: nat)
    requires k < |Stored(file)| + |drafts|
    ensures var n := |Stored(file)|;
      Append(file, drafts, clock)[k] == if k < n then Stored(file)[k] else Normalize(drafts[k - n], clock(k - n))
  {
    var m := Append(file, drafts, clock);
    var n := |Stored(file)|;
    if k < n {
      assert m[k] == m[..n][k];
    }
  }

  /** A clock that reads `first` for its first `n` ticks and `second` after that. */
  function Chain(n: nat, first: nat -> string, second: nat -> string): nat -> string
  {
    (i: nat) => if i < n then first(i) else second(i - n)
  }

  /** A chained clock reads the first clock for its first `n` ticks. */
  lemma ChainEarly(n: nat, first: nat -> string, second: nat -> string, i: nat)
    requires i < n
    ensures Chain(n, first, second)(i) == first(i)
  {
  }

  /** After `n` ticks, a chained clock reads the second clock from its start. */
  lemma ChainLate(n: nat, first: nat -> string, second: nat -> string, j: nat)
    ensures Chain(n, first, second)(n + j) == second(j)
  {
    assert n + j - n == j;
  }

  /** One position of the two-appends equation. */
  lemma AppendTwiceAt(file: Option<seq<Entry>>, first: seq<Draft>, second: seq<Draft>,
                      clock1: nat -> string, clock2: nat -> string, k: nat)
    requires k < |Stored(file)| + |first| + |second|
    ensures Append(Some(Append(file, first, clock1)), second, clock2)[k]
         == Append(file, first + second, Chain(|first|, clock1, clock2))[k]
  {
    if k < |Stored(file)| + |first| {
      AppendTwiceEarly(file, first, second, clock1, clock2, k);
    } else {
      AppendTwiceLate(file, first, second, clock1, clock2, k);
    }
  }

  /** The two-appends equation at a position before the second batch. */
  lemma AppendTwiceEarly(file: Option<seq<Entry>>, first: seq<Draft>, second: seq<Draft>,
                         clock1: nat -> string, clock2: nat -> string, k: nat)
    requires k < |Stored(file)| + |first|
    ensures Append(Some(Append(file, first, clock1)), second, clock2)[k]
         == Append(file, first + second, Chain(|first|, clock1, clock2))[k]
  {
    var inner := Append(file, first, clock1);
    var n := |Stored(file)|;
    AppendAt(Some(inner), second, clock2, k);
    AppendAt(file, first, clock1, k);
    AppendAt(file, first + second, Chain(|first|, clock1, clock2), k);
    if k >= n {
      assert (first + second)[k - n] == first[k - n];
      ChainEarly(|first|, clock1, clock2, k - n);
    }
  }

  /** The two-appends equation at a position inside the second batch. */
  lemma AppendTwiceLate(file: Option<seq<Entry>>, first: seq<Draft>, second: seq<Draft>,
                        clock1: nat -> string, clock2: nat -> string, k: nat)
    requires |Stored(file)| + |first| <= k < |Stored(file)| + |first| + |second|
    ensures Append(Some(Append(file, first, clock1)), second, clock2)[k]
         == Append(file, first + second, Chain(|first|, clock1, clock2))[k]
  {
    var j := k - |Stored(file)| - |first|;
    var both := Chain(|first|, clock1, clock2);
    var e := Normalize(second[j], clock2(j));
    AppendTwoLate(file, first, second, clock1, clock2, k);
    ChainLate(|first|, clock1, clock2, j);
    AppendOneLate(file, first, second, both, k);
    assert Normalize(second[j], both(|first| + j)) == e;
  }

  /** Past the stored entries and the first batch, the second append holds the second batch. */
  lemma AppendTwoLate(file: Option<seq<Entry>>, first: seq<Draft>, second: seq<Draft>,
                      clock1: nat -> string, clock2: nat -> string, k: nat)
    requires |Stored(file)| + |first| <= k < |Stored(file)| + |first| + |second|
    ensures var j := k - |Stored(file)| - |first|;
      Append(Some(Append(file, first, clock1)), second, clock2)[k] == Normalize(second[j], clock2(j))
  {
    var inner := Append(file, first, clock1);
    var j := k - |Stored(file)| - |first|;
    assert k - |Stored(Some(inner))| == j;
    AppendAt(Some(inner), second, clock2, k);
  }

  /** Past the stored entries and the first batch, one append holds the second batch. */
  lemma AppendOneLate(file: Option<seq<Entry>>, first: seq<Draft>, second: seq<Draft>, clock: nat -> string, k: nat)
    requires |Stored(file)| + |first| <= k < |Stored(file)| + |first| + |second|
    ensures var j := k - |Stored(file)| - |first|;
      Append(file, first + second, clock)[k] == Normalize(second[j], clock(|first| + j))
  {
    var i := k - |Stored(file)|;
    var j := i - |first|;
    assert i == |first| + j;
    AppendAt(file, first + second, clock, k);
    assert (first + second)[i] == second[j];
  }

  /**
   Two appends in a row equal one append of both batches: appending `[a, b]`
   and then `[c]` gives the same manifest as appending `[a, b, c]` with the
   clock readings in the same order.
   */
  lemma {:induction false} AppendTwice(file: Option<seq<Entry>>, first: seq<Draft>, second: seq<Draft>,
                                       clock1: nat -> string, clock2: nat -> string)
    ensures Append(Some(Append(file, first, clock1)), second, clock2)
         == Append(file, first + second, Chain(|first|, clock1, clock2))
  {
    var lhs := Append(Some(Append(file, first, clock1)), second, clock2);
    var rhs := Append(file, first + second, Chain(|first|, clock1, clock2));
    assert |lhs| == |rhs|;
    forall k | 0 <= k < |lhs| ensures lhs[k] == rhs[k] {
      AppendTwiceAt(file, first, second, clock1, clock2, k);
    }
  }

  /**
   A manifest of normal entries stays normal when the clock never reads as
   empty text.
   */
  lemma {:induction false} AppendKeepsNormal(file: Option<seq<Entry>>, drafts: seq<Draft>, clock: nat -> string)
    requires forall i :: 0 <= i < |Stored(file)| ==> Normal(Stored(file)[i])
    requires forall i: nat :: clock(i) != ""
    ensures var m := Append(file, drafts, clock);
      forall i :: 0 <= i < |m| ==> Normal(m[i])
  {
    var m := Append(file, drafts, clock);
    forall i | 0 <= i < |m| ensures Normal(m[i]) {
      AppendAt(file, drafts, clock, i);
    }
  }
}

=== FILE: openai.dfy ===
/**
 The OpenAI provider of `src/providers/openai.js`: `normalizeSize`, the
 request each call sends, and the two calls themselves. The network is an
 oracle: `api(k)` is what the service answers on attempt `k`. A missing API
 key fails before any request is made; otherwise the request is sent under
 `retry`.
 */
module OpenAI {
  import opened Results
  import opened Seqs
  import opened Strings
  import opened Utils

  /** Image bytes as the service returns them, already base64-decoded. */
  type Image = seq<bv8>

  const Square := "1024x1024"
  const Portrait := "1024x1536"
  const Landscape := "1536x1024"
  const Auto := "auto"

  /** The four sizes the image service accepts. */
  predicate IsAllowedSize(s: string) {
    s == Square || s == Portrait || s == Landscape || s == Auto
  }

  // ---------------------------------------------------------------------------
  // The pattern /(\d+)\s*x\s*(\d+)/

  /** The end of the longest run of characters satisfying `p` that starts at `from`. */
  function RunEnd(s: string, from: nat, p: char -> bool): (e: nat)
    requires from <= |s|
    ensures from <= e <= |s|
    ensures forall k :: from <= k < e ==> p(s[k])
    ensures e == |s| || !p(s[e])
    decreases |s| - from
  {
    if from < |s| && p(s[from]) then RunEnd(s, from + 1, p) else from
  }

  /** A run that cannot be extended is the longest run. */
  lemma {:induction false} RunEndUnique(s: string, from: nat, p: char -> bool, e: nat)
    requires from <= e <= |s|
    requires forall k :: from <= k < e ==> p(s[k])
    requires e == |s| || !p(s[e])
    ensures RunEnd(s, from, p) == e
    decreases e - from
  {
    if from < e {
      RunEndUnique(s, from + 1, p, e);
    }
  }

  /** The longest run reaches at least as far as any run. */
  lemma {:induction false} RunEndCovers(s: string, from: nat, p: char -> bool, e: nat)
    requires from <= e <= |s|
    requires forall k :: from <= k < e ==> p(s[k])
    ensures e <= RunEnd(s, from, p)
    decreases e - from
  {
    if from < e {
      RunEndCovers(s, from + 1, p, e);
    }
  }

  /**
   The pattern matches `s[p..e2]` with the first group `s[p..e1]`, the `x` at
   `a` and the second group `s[b..e2]`: digits, white space, `x`, white space,
   digits.
   */
  predicate PatternAt(s: string, p: int, e1: int, a: int, b: int, e2: int) {
    && 0 <= p < e1 <= a < b <= e2 <= |s|
    && b < e2
    && (forall k :: p <= k < e1 ==> IsDigit(s[k]))
    && (forall k :: e1 <= k < a ==> IsSpace(s[k]))
    && s[a] == 'x'
    && (forall k :: a + 1 <= k < b ==> IsSpace(s[k]))
    && (forall k :: b <= k < e2 ==> IsDigit(s[k]))
  }

  /** Where a match starts and ends, and where its groups lie. */
  datatype SizeMatch = SizeMatch(start: nat, widthEnd: nat, cross: nat, heightStart: nat, heightEnd: nat)

  lemma DigitNotSpace(c: char)
    requires IsDigit(c)
    ensures !IsSpace(c) && c != 'x'
  {
  }

  /**
   The match the regular-expression engine finds when it tries position `p`:
   digits, then white space, an `x`, white space and digits, each run taken
   as long as it goes (the quantifiers are greedy).
   */
  function MatchAt(s: string, p: nat): (r: Option<SizeMatch>)
    ensures r.Some? ==>
      && r.value.start == p
      && PatternAt(s, p, r.value.widthEnd, r.value.cross, r.value.heightStart, r.value.heightEnd)
      && (r.value.heightEnd == |s| || !IsDigit(s[r.value.heightEnd]))
  {
    if p < |s| && IsDigit(s[p]) then
      var e1 := RunEnd(s, p, IsDigit);
      var a := RunEnd(s, e1, IsSpace);
      if a < |s| && s[a] == 'x' then
        var b := RunEnd(s, a + 1, IsSpace);
        if b < |s| && IsDigit(s[b]) then Some(SizeMatch(p, e1, a, b, RunEnd(s, b, IsDigit)))
        else None
      else None
    else None
  }

  /**
   Whenever the pattern matches text starting at `p`, `MatchAt` finds a match
   there: with the same first group, the same `x`, and the longest second
   group.
   */
  lemma MatchAtComplete(s: string, p: nat, e1: nat, a: nat, b: nat, e2: nat)
    requires PatternAt(s, p, e1, a, b, e2)
    ensures MatchAt(s, p).Some?
    ensures var m := MatchAt(s, p).value;
      m.widthEnd == e1 && m.cross == a && m.heightStart == b && e2 <= m.heightEnd
  {
    PatternSameAsScan(s, p, e1, a, b, e2);
  }

  /** Every match at `p` has its boundaries where the scan of `MatchAt` puts them. */
  lemma PatternSameAsScan(s: string, p: nat, e1: nat, a: nat, b: nat, e2: nat)
    requires PatternAt(s, p, e1, a, b, e2)
    ensures e1 == RunEnd(s, p, IsDigit)
    ensures a == RunEnd(s, e1, IsSpace)
    ensures b == RunEnd(s, a + 1, IsSpace)
    ensures e2 <= RunEnd(s, b, IsDigit)
  {
    if e1 < a {
      DigitNotSpace(s[p]);
    }
    assert !IsDigit(s[e1]);
    RunEndUnique(s, p, IsDigit, e1);
    RunEndUnique(s, e1, IsSpace, a);
    DigitNotSpace(s[b]);
    RunEndUnique(s, a + 1, IsSpace, b);
    RunEndCovers(s, b, IsDigit, e2);
  }

  /**
   `s.match(pattern)`: the match at the leftmost position, from `from` on,
   where the pattern matches at all.
   */
  function FirstMatch(s: string, from: nat): (r: Option<SizeMatch>)
    requires from <= |s|
    ensures r.Some? ==> from <= r.value.start < |s| && MatchAt(s, r.value.start) == r
    ensures forall q :: from <= q < (if r.Some? then r.value.start else |s|) ==> MatchAt(s, q).None?
    decreases |s| - from
  {
    if from == |s| then None
    else if MatchAt(s, from).Some? then MatchAt(s, from)
    else FirstMatch(s, from + 1)
  }

  /**
   The least natural number whose `parseInt` is `Infinity`: halfway between
   the largest finite double, `(2^53 - 1) * 2^971`, and `2^1024`.
   */
  const DoubleOverflow: nat := 179769313486231580793728971405303415079934132710037826936173778980444968292764750946649017977587207096330286416692887910946555547851940402630657488671505820681908902000708383676273854845817711531764475730270069855571366959622842914819860834936475292719074168444365510704342711559699508093042880177904174497792

  /** `Number.isFinite(parseInt(digits, 10))` for a run of digits whose value is `n`. */
  predicate ParsesFinite(n: nat) {
    n < DoubleOverflow
  }

  lemma DigitsSlice(s: string, i: nat, j: nat)
    requires i <= j <= |s|
    requires forall k :: i <= k < j ==> IsDigit(s[k])
    ensures AllDigits(s[i..j])
  {
    assert forall k :: 0 <= k < j - i ==> s[i..j][k] == s[i + k];
  }

  /** `parseInt` of the run of digits `s[i..j]`. */
  function RunValue(s: string, i: nat, j: nat): nat
    requires i <= j <= |s|
    requires forall k :: i <= k < j ==> IsDigit(s[k])
  {
    DigitsSlice(s, i, j);
    DigitsValue(s[i..j])
  }

  /** The width and height a match captures. */
  function Dimensions(s: string, m: SizeMatch): (nat, nat)
    requires PatternAt(s, m.start, m.widthEnd, m.cross, m.heightStart, m.heightEnd)
  {
    (RunValue(s, m.start, m.widthEnd), RunValue(s, m.heightStart, m.heightEnd))
  }

  /**
   `normalizeSize(size)`, where `None` is `undefined` or `null`: a falsy size
   is the square size; an accepted size, in any letter case, is returned in
   lower case; otherwise the first `W x H` in the lower-cased text decides,
   landscape when `W >= H` and portrait when `W < H`; with no such pattern,
   or a number too large to be finite, the square size.
   */
  function NormalizeSize(size: Option<string>): (r: string)
    ensures IsAllowedSize(r)
    ensures !IsTruthy(size) ==> r == Square
    ensures IsTruthy(size) && IsAllowedSize(Lower(size.value)) ==> r == Lower(size.value)
  {
    if !IsTruthy(size) then Square
    else
      var s := Lower(size.value);
      if IsAllowedSize(s) then s
      else
        match FirstMatch(s, 0)
        case None => Square
        case Some(m) =>
          var (w, h) := Dimensions(s, m);
          if ParsesFinite(w) && ParsesFinite(h) then
            if w >= h then Landscape else Portrait
          else Square
  }

  /** Text in which the pattern occurs nowhere gives the square size. */
  lemma NormalizeSizeNoPattern(size: Option<string>)
    requires IsTruthy(size) && !IsAllowedSize(Lower(size.value))
    requires forall p, e1, a, b, e2 :: !PatternAt(Lower(size.value), p, e1, a, b, e2)
    ensures NormalizeSize(size) == Square
  {
    var s := Lower(size.value);
    var m := FirstMatch(s, 0);
    assert m.Some? ==> MatchAt(s, m.value.start).Some?;
  }

  /**
   The first `W x H` decides: if the pattern matches at `p`, with `W` the digits
   before the `x` and `H` all the digits after it, and at no earlier position,
   the result compares `W` with `H`, squares counting as landscape.
   */
  lemma NormalizeSizeCompares(size: Option<string>, p: nat, e1: nat, a: nat, b: nat, e2: nat)
    requires IsTruthy(size) && !IsAllowedSize(Lower(size.value))
    requires PatternAt(Lower(size.value), p, e1, a, b, e2)
    requires e2 == |Lower(size.value)| || !IsDigit(Lower(size.value)[e2])
    requires forall q, e1', a', b', e2' :: q < p ==> !PatternAt(Lower(size.value), q, e1', a', b', e2')
    ensures var s := Lower(size.value);
      var w, h := RunValue(s, p, e1), RunValue(s, b, e2);
      ParsesFinite(w) && ParsesFinite(h) ==>
        NormalizeSize(size) == (if w >= h then Landscape else Portrait)
  {
    var s := Lower(size.value);
    var m := FirstMatch(s, 0);
    MatchAtComplete(s, p, e1, a, b, e2);
    assert m.Some? && m.value.start == p;
    assert m.value.heightEnd == e2;
  }

  lemma LowerExample()
    ensures Lower("512X512") == "512x512"
  {
    assert Lower("512X512") == LowerChar('5') + Lower("12X512");
    assert Lower("12X512") == LowerChar('1') + Lower("2X512");
    assert Lower("2X512") == LowerChar('2') + Lower("X512");
    assert Lower("X512") == LowerChar('X') + Lower("512");
    assert Lower("512") == LowerChar('5') + Lower("12");
    assert Lower("12") == LowerChar('1') + Lower("2");
    assert Lower("2") == LowerChar('2') + Lower("");
  }

  /** A square given in any case, like `512X512`, becomes landscape. */
  lemma SquareIsLandscape()
    ensures NormalizeSize(Some("512X512")) == Landscape
  {
    LowerExample();
    SquareText();
    NormalizeSizeCompares(Some("512X512"), 0, 3, 3, 4, 7);
  }

  /** `512x512` is not an accepted size, matches at its start, and has two equal, finite sides. */
  lemma SquareText()
    ensures var s := "512x512";
      && !IsAllowedSize(s)
      && PatternAt(s, 0, 3, 3, 4, 7)
      && RunValue(s, 0, 3) == RunValue(s, 4, 7) == 512
  {
    var s := "512x512";
    assert s[0..3] == s[4..7] == "512";
    assert DropLast("512") == "51" && DropLast("51") == "5" && DropLast("5") == "";
  }

  // ---------------------------------------------------------------------------
  // Requests and calls

  const Model := "gpt-image-1"

  /** The parameters of one request (the image of an edit is not modelled). */
  datatype Request =
    | GenerateRequest(model: string, prompt: string, size: string, n: int)
    | EditRequest(model: string, prompt: string, size: string, background: Option<string>)

  /** The size argument with its default `'1024x1024'` for `undefined`, normalised. */
  function RequestSize(size: Option<string>): (r: string)
    ensures IsAllowedSize(r)
    ensures size.None? ==> r == Square
    ensures r == NormalizeSize(Some(size.GetOr(Square)))
  {
    LowerOfSlugShape(Square);
    NormalizeSize(Some(size.GetOr(Square)))
  }

  /** `images.generate` parameters: the model, the prompt, an accepted size and the count. */
  function GenerateParams(prompt: string, size: Option<string>, count: int): (q: Request)
    ensures q.GenerateRequest? && q.model == Model && q.prompt == prompt && q.n == count
    ensures IsAllowedSize(q.size) && q.size == RequestSize(size)
  {
    GenerateRequest(Model, prompt, RequestSize(size), count)
  }

  /**
   `images.edits` parameters: the request asks for a transparent background
   exactly when `transparent` is set, and says nothing about the background
   otherwise.
   */
  function EditParams(prompt: string, size: Option<string>, transparent: bool): (q: Request)
    ensures q.EditRequest? && q.model == Model && q.prompt == prompt
    ensures IsAllowedSize(q.size) && q.size == RequestSize(size)
    ensures q.background == Some("transparent") <==> transparent
    ensures q.background.None? <==> !transparent
  {
    var background := if transparent then Some("transparent") else None;
    EditRequest(Model, prompt, RequestSize(size), background)
  }

  /**
   Why a call failed: no API key, or the error `retry` rethrew (`None` when it
   threw `undefined`, which a negative retry count causes).
   */
  datatype ProviderError = MissingCredentials | Thrown(error: Option<string>)

  /** One provider call: the request sent, if any, the outcome and the attempts made. */
  datatype Call<T> = Call(request: Option<Request>, outcome: Result<T, ProviderError>, attempts: seq<nat>)

  /** A call made with `request` under `retry`. */
  function Send<T>(request: Request, retries: int, api: nat -> Result<T, string>): (c: Call<T>)
    ensures c.request == Some(request)
    ensures forall i :: 0 <= i < |c.attempts| ==> c.attempts[i] == i
    ensures c.outcome.Ok? <==> exists k: nat :: k <= retries && api(k).Ok?
    ensures c.outcome.Ok? ==>
      |c.attempts| > 0 && api(|c.attempts| - 1) == Ok(c.outcome.value) && FailsOn(api, 0, |c.attempts| - 1)
    ensures retries >= 0 && c.outcome.Err? ==>
      |c.attempts| == retries + 1 && c.outcome.error == Thrown(Some(api(retries).error))
    ensures retries < 0 ==> c.outcome == Err(Thrown(None)) && c.attempts == []
  {
    var run := Retry(api, retries);
    var outcome := match run.outcome
      case Ok(v) => Ok(v)
      case Err(e) => Err(Thrown(e));
    Call(Some(request), outcome, run.attempts)
  }

  /**
   `generateOpenAI({prompt, size, count})`: with no API key, fails before any
   request; otherwise sends the generate request under `retry`, with the
   retry count `OPENAI_MAX_RETRIES` gives (`maxRetries`), and returns the
   images of the first answer that succeeds.
   */
  function GenerateOpenAI(key: Option<string>, maxRetries: Option<int>, prompt: string, size: Option<string>, count: int,
                          api: nat -> Result<seq<Image>, string>): (c: Call<seq<Image>>)
    ensures !IsTruthy(key) ==> c == Call(None, Err(MissingCredentials), [])
    ensures IsTruthy(key) ==> c == Send(GenerateParams(prompt, size, count), RetryCount(maxRetries), api)
  {
    if !IsTruthy(key) then Call(None, Err(MissingCredentials), [])
    else Send(GenerateParams(prompt, size, count), RetryCount(maxRetries), api)
  }

  /**
   `editOpenAI({imagePath, prompt, size, transparent})`: with no API key,
   fails before any request; otherwise sends the edit request under `retry`,
   with the retry count `OPENAI_MAX_RETRIES` gives (`maxRetries`).
   */
  function EditOpenAI(key: Option<string>, maxRetries: Option<int>, prompt: string, size: Option<string>, transparent: bool,
                      api: nat -> Result<Image, string>): (c: Call<Image>)
    ensures !IsTruthy(key) ==> c == Call(None, Err(MissingCredentials), [])
    ensures IsTruthy(key) ==> c == Send(EditParams(prompt, size, transparent), RetryCount(maxRetries), api)
  {
    if !IsTruthy(key) then Call(None, Err(MissingCredentials), [])
    else Send(EditParams(prompt, size, transparent), RetryCount(maxRetries), api)
  }
}

=== FILE: postprocess.dfy ===
/**
 The file plan of `saveMultiFormats` in `src/postprocess.js`. The pixel work
 (cover-crop resize, encoding, the 32-pixel placeholder) is abstracted away:
 the model computes which files are written, in which order, with which
 encoder settings, which paths are returned and which placeholder sidecars
 are written next to them.
 */
module Postprocess {
  import opened Results
  import opened Seqs
  import opened Strings

  datatype Size = Size(width: nat, height: nat)

  /** Encoder settings handed to sharp for one file. */
  datatype Encoding = Jpeg(quality: int, mozjpeg: bool) | Png | Webp(quality: int) | Avif(quality: int)

  /**
   The options object. A `None` field was left `undefined` by the caller and
   takes its default.
   */
  datatype Options = Options(
    outDir: string,
    baseName: string,
    sizes: Option<seq<Size>>,
    formats: Option<seq<string>>,
    quality: Option<int>,
    withLqip: Option<bool>)

  /** One file written: its path and how it is encoded. */
  datatype Output = Output(path: string, encoding: Encoding)

  /** What one call writes: the main files in order, and the sidecars in order. */
  datatype Plan = Plan(outputs: seq<Output>, sidecars: seq<string>)

  const DefaultSizes: seq<Size> := [Size(1200, 1200)]
  const DefaultFormats: seq<string> := ["jpg", "webp", "avif"]
  const DefaultQuality: int := 90
  const DefaultWithLqip: bool := true

  /** Suffix of the placeholder file written next to a JPEG. */
  const LqipSuffix: string := ".lqip.txt"

  /**
   The encoder for a format name (the `switch`): exact, case-sensitive names
   `jpg`, `png`, `webp` and `avif`; any other name is skipped. The shared
   quality goes to every lossy encoder and not to PNG; JPEG also uses mozjpeg.
   */
  function EncodingOf(format: string, quality: int): (r: Option<Encoding>)
    ensures r.Some? <==> IsKnownFormat(format)
    ensures r == Some(Png) <==> format == "png"
    ensures r.Some? && !r.value.Png? ==> r.value.quality == quality
    ensures r.Some? && r.value.Jpeg? <==> format == "jpg"
    ensures r.Some? && r.value.Jpeg? ==> r.value.mozjpeg
  {
    match format
    case "jpg" => Some(Jpeg(quality, true))
    case "png" => Some(Png)
    case "webp" => Some(Webp(quality))
    case "avif" => Some(Avif(quality))
    case _ => None
  }

  predicate IsKnownFormat(format: string) {
    format == "jpg" || format == "png" || format == "webp" || format == "avif"
  }

  /**
   The recognised format names, in their order and with their repeats (the
   loop visits every entry and a repeated name is written again); every
   other name is skipped.
   */
  function KnownFormats(formats: seq<string>): (r: seq<string>)
    ensures |r| <= |formats|
    ensures forall j :: 0 <= j < |r| ==> IsKnownFormat(r[j])
    ensures forall f :: f in r <==> f in formats && IsKnownFormat(f)
  {
    Filter(IsKnownFormat, formats)
  }

  /** The formats of a concatenation are those of each part, in order, repeats kept. */
  lemma KnownFormatsConcat(a: seq<string>, b: seq<string>)
    ensures KnownFormats(a + b) == KnownFormats(a) + KnownFormats(b)
  {
    FilterConcat(IsKnownFormat, a, b);
  }

  /** One format name is kept exactly when it is recognised. */
  lemma KnownFormatsOne(f: string)
    ensures KnownFormats([f]) == if IsKnownFormat(f) then [f] else []
  {
    FilterSnoc(IsKnownFormat, [], f);
    assert [] + [f] == [f];
  }

  /** `path.join(dir, name)` for a directory and a plain file name. */
  function JoinPath(dir: string, name: string): (r: string)
    ensures EndsWith(r, name)
    ensures dir == "" ==> r == name
    ensures dir != "" ==> StartsWith(r, dir) && |r| <= |dir| + 1 + |name| && EndsWith(r[..|r| - |name|], "/")
  {
    if dir == "" then name
    else if EndsWith(dir, "/") then dir + name
    else dir + "/" + name
  }

  /** `{baseName}-{w}x{h}.{format}` inside `outDir`. */
  function FilePath(outDir: string, baseName: string, size: Size, format: string): (r: string)
    ensures EndsWith(r, "." + format)
    ensures EndsWith(r, baseName + "-" + NatToString(size.width) + "x" + NatToString(size.height) + "." + format)
    ensures outDir != "" ==> StartsWith(r, outDir)
  {
    var name := baseName + "-" + NatToString(size.width) + "x" + NatToString(size.height) + "." + format;
    assert EndsWith(name, "." + format);
    JoinPath(outDir, name)
  }

  /** The files written for one size: one per known format, in format order. */
  function SizeOutputs(outDir: string, baseName: string, size: Size, known: seq<string>, quality: int): (r: seq<Output>)
    requires forall j :: 0 <= j < |known| ==> IsKnownFormat(known[j])
    ensures |r| == |known|
    ensures forall j :: 0 <= j < |known| ==>
      r[j] == Output(FilePath(outDir, baseName, size, known[j]), EncodingOf(known[j], quality).value)
  {
    seq(|known|, j requires 0 <= j < |known| =>
      Output(FilePath(outDir, baseName, size, known[j]), EncodingOf(known[j], quality).value))
  }

  /** The files written for all sizes: size-major, format-minor. */
  function AllOutputs(outDir: string, baseName: string, sizes: seq<Size>, known: seq<string>, quality: int): (r: seq<Output>)
    requires forall j :: 0 <= j < |known| ==> IsKnownFormat(known[j])
    decreases |sizes|
  {
    if sizes == [] then []
    else AllOutputs(outDir, baseName, DropLast(sizes), known, quality)
         + SizeOutputs(outDir, baseName, Last(sizes), known, quality)
  }

  /** One more size adds that size's files at the end. */
  lemma AllOutputsSnoc(outDir: string, baseName: string, sizes: seq<Size>, size: Size, known: seq<string>, quality: int)
    requires forall j :: 0 <= j < |known| ==> IsKnownFormat(known[j])
    ensures AllOutputs(outDir, baseName, sizes + [size], known, quality)
      == AllOutputs(outDir, baseName, sizes, known, quality) + SizeOutputs(outDir, baseName, size, known, quality)
  {
    assert DropLast(sizes + [size]) == sizes;
    assert Last(sizes + [size]) == size;
  }

  lemma {:induction false} AllOutputsLength(outDir: string, baseName: string, sizes: seq<Size>, known: seq<string>, quality: int)
    requires forall j :: 0 <= j < |known| ==> IsKnownFormat(known[j])
    ensures |AllOutputs(outDir, baseName, sizes, known, quality)| == |sizes| * |known|
    decreases |sizes|
  {
    if sizes != [] {
      AllOutputsLength(outDir, baseName, DropLast(sizes), known, quality);
      assert |sizes| * |known| == (|sizes| - 1) * |known| + |known|;
    }
  }

  /**
   The file for size `i` and the `j`-th known format sits at position
   `i * |known| + j`.
   */
  lemma {:induction false} AllOutputsAt(outDir: string, baseName: string, sizes: seq<Size>, known: seq<string>, quality: int, i: nat, j: nat)
    requires forall j :: 0 <= j < |known| ==> IsKnownFormat(known[j])
    requires i < |sizes| && j < |known|
    ensures i * |known| + j < |AllOutputs(outDir, baseName, sizes, known, quality)|
    ensures AllOutputs(outDir, baseName, sizes, known, quality)[i * |known| + j]
      == Output(FilePath(outDir, baseName, sizes[i], known[j]), EncodingOf(known[j], quality).value)
    decreases |sizes|
  {
    var init := DropLast(sizes);
    var k := |known|;
    AllOutputsLength(outDir, baseName, init, known, quality);
    var a := AllOutputs(outDir, baseName, init, known, quality);
    if i < |init| {
      AllOutputsAt(outDir, baseName, init, known, quality, i, j);
      assert sizes[i] == init[i];
    } else {
      assert i * k == |a|;
    }
  }

  predicate NoSidecarPath(outputs: seq<Output>) {
    forall k :: 0 <= k < |outputs| ==> !EndsWith(outputs[k].path, LqipSuffix)
  }

  /** No main file has the sidecar suffix. */
  lemma {:induction false} AllOutputsNotSidecars(outDir: string, baseName: string, sizes: seq<Size>, known: seq<string>, quality: int)
    requires forall j :: 0 <= j < |known| ==> IsKnownFormat(known[j])
    ensures NoSidecarPath(AllOutputs(outDir, baseName, sizes, known, quality))
    decreases |sizes|
  {
    if sizes != [] {
      AllOutputsNotSidecars(outDir, baseName, DropLast(sizes), known, quality);
      var a := AllOutputs(outDir, baseName, DropLast(sizes), known, quality);
      var b := SizeOutputs(outDir, baseName, Last(sizes), known, quality);
      var r := a + b;
      assert AllOutputs(outDir, baseName, sizes, known, quality) == r;
      forall k | 0 <= k < |r| ensures !EndsWith(r[k].path, LqipSuffix) {
        if k < |a| {
          assert r[k] == a[k];
        } else {
          assert r[k] == b[k - |a|];
          MainIsNotSidecar(outDir, baseName, Last(sizes), known[k - |a|]);
        }
      }
    }
  }

  /** A main file never has the sidecar suffix. */
  lemma MainIsNotSidecar(outDir: string, baseName: string, size: Size, format: string)
    requires IsKnownFormat(format)
    ensures !EndsWith(FilePath(outDir, baseName, size, format), LqipSuffix)
  {
    var p := FilePath(outDir, baseName, size, format);
    assert Last(p) == Last("." + format);
  }

  /** The sidecar paths: one right after each JPEG file, when enabled. */
  function Sidecars(outputs: seq<Output>, withLqip: bool): (r: seq<string>)
    decreases |outputs|
  {
    if !withLqip || outputs == [] then []
    else Sidecars(DropLast(outputs), withLqip)
         + (if Last(outputs).encoding.Jpeg? then [Last(outputs).path + LqipSuffix] else [])
  }

  predicate IsJpegOutput(o: Output) {
    o.encoding.Jpeg?
  }

  /** Sidecars belong to JPEG files, one each, and none without the option. */
  lemma {:induction false} SidecarsOfJpegs(outputs: seq<Output>, withLqip: bool)
    ensures !withLqip ==> Sidecars(outputs, withLqip) == []
    ensures withLqip ==> |Sidecars(outputs, withLqip)| == |Filter(IsJpegOutput, outputs)|
    ensures forall s :: s in Sidecars(outputs, withLqip) <==>
      withLqip && exists o :: o in outputs && o.encoding.Jpeg? && s == o.path + LqipSuffix
    decreases |outputs|
  {
    if withLqip && outputs != [] {
      SidecarsOfJpegs(DropLast(outputs), withLqip);
      assert outputs == DropLast(outputs) + [Last(outputs)];
      FilterSnoc(IsJpegOutput, DropLast(outputs), Last(outputs));
      forall s ensures s in Sidecars(outputs, withLqip) <==>
        exists o :: o in outputs && o.encoding.Jpeg? && s == o.path + LqipSuffix
      {
        if s in Sidecars(outputs, withLqip) && s !in Sidecars(DropLast(outputs), withLqip) {
          assert Last(outputs) in outputs;
        }
        if exists o :: o in outputs && o.encoding.Jpeg? && s == o.path + LqipSuffix {
          var o :| o in outputs && o.encoding.Jpeg? && s == o.path + LqipSuffix;
          if o != Last(outputs) {
            assert o in DropLast(outputs);
          }
        }
      }
    }
  }

  /** The options with every `undefined` field replaced by its default. */
  function EffectiveSizes(o: Options): seq<Size> { o.sizes.GetOr(DefaultSizes) }
  function EffectiveFormats(o: Options): seq<string> { o.formats.GetOr(DefaultFormats) }
  function EffectiveQuality(o: Options): int { o.quality.GetOr(DefaultQuality) }
  function EffectiveLqip(o: Options): bool { o.withLqip.GetOr(DefaultWithLqip) }

  /**
   `outputs` lists, size-major and format-minor, the file of every size in
   `sizes` with every format in `known`: the one for size `i` and format `j`
   is at position `i * |known| + j`.
   */
  predicate SizeMajor(outputs: seq<Output>, outDir: string, baseName: string, sizes: seq<Size>, known: seq<string>, q: int) {
    forall i, j {:trigger sizes[i], known[j]} :: 0 <= i < |sizes| && 0 <= j < |known| ==>
      OutputAt(outputs, i * |known| + j, FilePath(outDir, baseName, sizes[i], known[j]), EncodingOf(known[j], q))
  }

  /** Position `pos` holds the file `path` with encoding `encoding`. */
  predicate OutputAt(outputs: seq<Output>, pos: int, path: string, encoding: Option<Encoding>) {
    0 <= pos < |outputs| && outputs[pos].path == path && Some(outputs[pos].encoding) == encoding
  }

  lemma {:induction false} AllOutputsOrder(outDir: string, baseName: string, sizes: seq<Size>, known: seq<string>, q: int)
    requires forall j :: 0 <= j < |known| ==> IsKnownFormat(known[j])
    ensures SizeMajor(AllOutputs(outDir, baseName, sizes, known, q), outDir, baseName, sizes, known, q)
  {
    var r := AllOutputs(outDir, baseName, sizes, known, q);
    forall i, j | 0 <= i < |sizes| && 0 <= j < |known|
      ensures OutputAt(r, i * |known| + j, FilePath(outDir, baseName, sizes[i], known[j]), EncodingOf(known[j], q))
    {
      AllOutputsAt(outDir, baseName, sizes, known, q, i, j);
    }
  }

  /**
   `saveMultiFormats(buf, options)`: for every size, in order, and every
   recognised format, in order, the file `outDir/{baseName}-{w}x{h}.{fmt}`;
   unrecognised formats contribute nothing. A placeholder sidecar
   `{file}.lqip.txt` follows each JPEG file when `withLqip` holds, and is not
   a main file.
   */
  function SaveMultiFormats(o: Options): (plan: Plan)
    ensures forall k :: 0 <= k < |plan.outputs| ==> !EndsWith(plan.outputs[k].path, LqipSuffix)
    ensures !EffectiveLqip(o) ==> plan.sidecars == []
  {
    var outputs := AllOutputs(o.outDir, o.baseName, EffectiveSizes(o), KnownFormats(EffectiveFormats(o)), EffectiveQuality(o));
    AllOutputsNotSidecars(o.outDir, o.baseName, EffectiveSizes(o), KnownFormats(EffectiveFormats(o)), EffectiveQuality(o));
    SidecarsOfJpegs(outputs, EffectiveLqip(o));
    Plan(outputs, Sidecars(outputs, EffectiveLqip(o)))
  }

  /** The plan of a call in terms of the options in effect. */
  lemma SaveMultiFormatsParts(o: Options)
    ensures SaveMultiFormats(o).outputs
      == AllOutputs(o.outDir, o.baseName, EffectiveSizes(o), KnownFormats(EffectiveFormats(o)), EffectiveQuality(o))
    ensures SaveMultiFormats(o).sidecars == Sidecars(SaveMultiFormats(o).outputs, EffectiveLqip(o))
  {
  }

  /**
   The files of a call, size-major and format-minor: `|sizes|` times the
   number of recognised formats, the one for size `i` and format `j` at
   `i * |known| + j`, encoded as its format says.
   */
  lemma SaveMultiFormatsOrder(o: Options)
    ensures var plan := SaveMultiFormats(o);
      && |plan.outputs| == |EffectiveSizes(o)| * |KnownFormats(EffectiveFormats(o))|
      && SizeMajor(plan.outputs, o.outDir, o.baseName, EffectiveSizes(o), KnownFormats(EffectiveFormats(o)), EffectiveQuality(o))
  {
    var sizes, known := EffectiveSizes(o), KnownFormats(EffectiveFormats(o));
    AllOutputsLength(o.outDir, o.baseName, sizes, known, EffectiveQuality(o));
    AllOutputsOrder(o.outDir, o.baseName, sizes, known, EffectiveQuality(o));
  }

  /**
   The sidecars of a call: exactly one `{file}.lqip.txt` per JPEG file, when
   `withLqip` holds, and none otherwise.
   */
  lemma SaveMultiFormatsSidecars(o: Options)
    ensures var plan := SaveMultiFormats(o);
      && (EffectiveLqip(o) ==> |plan.sidecars| == |Filter(IsJpegOutput, plan.outputs)|)
      && forall s :: s in plan.sidecars <==>
           EffectiveLqip(o) && exists out :: out in plan.outputs && out.encoding.Jpeg? && s == out.path + LqipSuffix
  {
    var plan := SaveMultiFormats(o);
    SidecarsOfJpegs(plan.outputs, EffectiveLqip(o));
  }

  /** The returned list: the main files' paths, in the order they are written. */
  function Paths(plan: Plan): (r: seq<string>)
    ensures |r| == |plan.outputs|
    ensures forall k :: 0 <= k < |r| ==> r[k] == plan.outputs[k].path
  {
    seq(|plan.outputs|, k requires 0 <= k < |plan.outputs| => plan.outputs[k].path)
  }

  /**
   What `saveMultiFormats` returns: one path per size and recognised format,
   none of them a placeholder sidecar.
   */
  lemma ReturnedPaths(o: Options)
    ensures var paths := Paths(SaveMultiFormats(o));
      && |paths| == |EffectiveSizes(o)| * |KnownFormats(EffectiveFormats(o))|
      && forall k :: 0 <= k < |paths| ==> !EndsWith(paths[k], LqipSuffix)
  {
    SaveMultiFormatsOrder(o);
  }
}

=== FILE: prompt_builder.dfy ===
/**
 The prompt builder of `src/prompt-builder.js`: it picks the topic rules
 from the last segment of the page path and the container rules by name
 (falling back to the hero container), fills the prompt template, and
 assembles the page metadata the generation driver reads with `--meta`.
 */
module PromptBuilder {
  import opened Results
  import opened Seqs
  import opened Strings

  /** The subject, materials and details of one page topic. */
  datatype Topic = Topic(subject: string, materials: string, details: string)

  /** The style of one page container and what it should avoid. */
  datatype ContainerRule = ContainerRule(style: string, avoid: Option<string>)

  /** `config/prompt-rules.json`, already validated. */
  datatype Rules = Rules(topics: map<string, Topic>, containers: map<string, ContainerRule>, negatives: Option<string>)

  /** The command line; `None` is a flag left out, which then takes its default. */
  datatype Args = Args(
    page: string,
    container: string,
    brand: Option<string>,
    keywords: Option<string>,
    desc: Option<string>,
    alt: Option<string>)

  /** The metadata object the builder writes. */
  datatype PageMeta = PageMeta(
    prompt: string,
    page: string,
    container: string,
    alt: string,
    description: string,
    keywords: seq<string>)

  /** The only way the builder fails: an unknown container when there is no hero rule to fall back on. */
  datatype BuildError = NoContainerRule

  const DefaultSlug := "default"
  const DefaultTopic := Topic("shop interior", "modern fixtures", "clean lighting")
  const HeroContainer := "hero"
  const DefaultBrand := "GrowCologne"

  // ---------------------------------------------------------------------------
  // The page topic

  predicate NonEmpty(s: string) {
    s != []
  }

  /** `page.split('/').filter(Boolean)` */
  function Segments(page: string): (segs: seq<string>)
    ensures forall i :: 0 <= i < |segs| ==> segs[i] != [] && '/' !in segs[i]
  {
    Filter(NonEmpty, Split(page, '/'))
  }

  /** The last non-empty segment of the page path, or `"default"` when it has none. */
  function TopicSlug(page: string): (slug: string)
    ensures slug != [] && '/' !in slug
  {
    var segs := Segments(page);
    if segs == [] then DefaultSlug else Last(segs)
  }

  /** The page path without its trailing slashes. */
  function StripTrailingSlashes(s: string): (r: string)
    ensures StartsWith(s, r)
    ensures r == [] || Last(r) != '/'
    ensures forall i :: |r| <= i < |s| ==> s[i] == '/'
    decreases |s|
  {
    if s != [] && Last(s) == '/' then StripTrailingSlashes(DropLast(s)) else s
  }

  /** The text after the last slash: a slash-free suffix that starts the text or follows a slash. */
  function AfterLastSlash(s: string): (r: string)
    ensures EndsWith(s, r) && '/' !in r
    ensures |r| == |s| || s[|s| - |r| - 1] == '/'
    decreases |s|
  {
    if s == [] || Last(s) == '/' then []
    else
      var r := AfterLastSlash(DropLast(s)) + [Last(s)];
      assert s == DropLast(s) + [Last(s)];
      r
  }

  /** The last piece of splitting on `/` is the text after the last slash. */
  lemma {:induction false} LastPiece(s: string)
    ensures Last(Split(s, '/')) == AfterLastSlash(s)
    decreases |s|
  {
    if s != [] && Last(s) != '/' {
      LastPiece(DropLast(s));
    }
  }

  /**
   The topic slug, by an independent description: strip the trailing
   slashes, then take what follows the last slash; a page of slashes alone
   has the slug `"default"`.
   */
  lemma {:induction false} TopicSlugIsLastSegment(page: string)
    ensures StripTrailingSlashes(page) == [] ==> TopicSlug(page) == DefaultSlug
    ensures StripTrailingSlashes(page) != [] ==> TopicSlug(page) == AfterLastSlash(StripTrailingSlashes(page))
    decreases |page|
  {
    if page != [] {
      if Last(page) == '/' {
        TopicSlugOfSlash(page);
        TopicSlugIsLastSegment(DropLast(page));
      } else {
        TopicSlugOfSegment(page);
      }
    }
  }

  /** A trailing slash adds only an empty piece, which the segments drop. */
  lemma {:induction false} TopicSlugOfSlash(page: string)
    requires page != [] && Last(page) == '/'
    ensures Segments(page) == Segments(DropLast(page))
    ensures TopicSlug(page) == TopicSlug(DropLast(page))
  {
    FilterSnoc(NonEmpty, Split(DropLast(page), '/'), "");
  }

  /** A page ending in a non-slash has the text after its last slash as its slug. */
  lemma {:induction false} TopicSlugOfSegment(page: string)
    requires page != [] && Last(page) != '/'
    ensures TopicSlug(page) == AfterLastSlash(page)
  {
    var init := Split(DropLast(page), '/');
    var piece := Last(init) + [Last(page)];
    assert Split(page, '/') == DropLast(init) + [piece];
    FilterSnoc(NonEmpty, DropLast(init), piece);
    LastPiece(DropLast(page));
  }

  /** The topic of a page: its slug's rules, or the fixed default topic. */
  function PageTopic(rules: Rules, page: string): (t: Topic)
    ensures TopicSlug(page) in rules.topics ==> t == rules.topics[TopicSlug(page)]
    ensures TopicSlug(page) !in rules.topics ==> t == DefaultTopic
  {
    var slug := TopicSlug(page);
    if slug in rules.topics then rules.topics[slug] else DefaultTopic
  }

  /** Trailing slashes and the leading path do not change the topic. */
  lemma {:induction false} PageTopicOfNestedPath(rules: Rules, dir: string, name: string)
    requires name != [] && '/' !in name
    ensures PageTopic(rules, dir + "/" + name + "/") == PageTopic(rules, name)
  {
    NestedSlug(dir, name);
  }

  /** The slug of `dir/name/` is the slug of `name`. */
  lemma {:induction false} NestedSlug(dir: string, name: string)
    requires name != [] && '/' !in name
    ensures TopicSlug(dir + "/" + name + "/") == TopicSlug(name)
  {
    SlugOfNestedPath(dir + "/", name);
    SlugOfName(name);
  }

  /** A non-empty slash-free name is its own slug. */
  lemma {:induction false} SlugOfName(name: string)
    requires name != [] && '/' !in name
    ensures TopicSlug(name) == name
  {
    SlugOfNestedPath([], name);
    assert [] + name + "/" == name + "/";
    SlugIgnoresTrailingSlash(name);
  }

  /** A slash-free name after a slash, followed by a slash, is the slug. */
  lemma {:induction false} SlugOfNestedPath(dir: string, name: string)
    requires name != [] && '/' !in name
    requires dir == [] || Last(dir) == '/'
    ensures TopicSlug(dir + name + "/") == name
  {
    var path := dir + name;
    assert Last(name) in name;
    assert Last(path) == Last(name);
    assert DropLast(path + "/") == path;
    assert StripTrailingSlashes(path + "/") == path;
    TopicSlugIsLastSegment(path + "/");
    AfterLastSlashAppend(dir, name);
  }

  lemma {:induction false} SlugIgnoresTrailingSlash(name: string)
    ensures TopicSlug(name + "/") == TopicSlug(name)
  {
    assert DropLast(name + "/") == name;
    TopicSlugIsLastSegment(name + "/");
    TopicSlugIsLastSegment(name);
  }

  /** Slash-free text appended after a slash is everything that follows the last slash. */
  lemma {:induction false} AfterLastSlashAppend(s: string, name: string)
    requires '/' !in name
    requires s == [] || Last(s) == '/'
    ensures AfterLastSlash(s + name) == name
    decreases |name|
  {
    if name == [] {
      assert s + name == s;
    } else {
      var init := DropLast(name);
      var c := Last(name);
      assert name == init + [c];
      assert c in name;
      assert '/' !in init by {
        assert forall x :: x in init ==> x in name;
      }
      AfterLastSlashAppend(s, init);
      assert s + name == (s + init) + [c];
      assert DropLast((s + init) + [c]) == s + init;
    }
  }

  // ---------------------------------------------------------------------------
  // The container

  /** The rules of the container, or of the hero container when it has none. */
  function ContainerRuleOf(rules: Rules, container: string): (r: Result<ContainerRule, BuildError>)
    ensures container in rules.containers ==> r == Ok(rules.containers[container])
    ensures container !in rules.containers && HeroContainer in rules.containers ==>
      r == Ok(rules.containers[HeroContainer])
    ensures r.Err? <==> container !in rules.containers && HeroContainer !in rules.containers
  {
    if container in rules.containers then Ok(rules.containers[container])
    else if HeroContainer in rules.containers then Ok(rules.containers[HeroContainer])
    else Err(NoContainerRule)
  }

  /** `parts.join(sep)` for a separator string. */
  function JoinWith(parts: seq<string>, sep: string): string
    decreases |parts|
  {
    if parts == [] then ""
    else if |parts| == 1 then parts[0]
    else JoinWith(DropLast(parts), sep) + sep + Last(parts)
  }

  /** One element of an array before `filter(Boolean)`: kept when truthy. */
  function Present(o: Option<string>): (r: seq<string>)
    ensures IsTruthy(o) ==> r == [o.value]
    ensures !IsTruthy(o) ==> r == []
  {
    if IsTruthy(o) then [o.value] else []
  }

  /** What to avoid: the global negatives and the container's avoid list, whichever are non-empty, joined with `", "`. */
  function Avoid(negatives: Option<string>, avoid: Option<string>): (r: string)
    ensures IsTruthy(negatives) && IsTruthy(avoid) ==> r == negatives.value + ", " + avoid.value
    ensures IsTruthy(negatives) && !IsTruthy(avoid) ==> r == negatives.value
    ensures !IsTruthy(negatives) && IsTruthy(avoid) ==> r == avoid.value
    ensures r == "" <==> !IsTruthy(negatives) && !IsTruthy(avoid)
  {
    var values := Present(negatives) + Present(avoid);
    if IsTruthy(negatives) && IsTruthy(avoid) then
      assert values == [negatives.value, avoid.value];
      assert DropLast(values) == [negatives.value] && Last(values) == avoid.value;
      assert JoinWith(DropLast(values), ", ") == negatives.value;
      JoinWith(values, ", ")
    else
      JoinWith(values, ", ")
  }

  // ---------------------------------------------------------------------------
  // The prompt

  const KeywordsLabel := "Keywords: "
  const ContextLabel := "Context: "

  /**
   An optional part of the template: the heading and the text when the text
   is given, otherwise nothing (`Keywords: …` and `Context: …`).
   */
  function Fragment(heading: string, text: string): (r: string)
    ensures r == "" <==> text == ""
    ensures text != "" ==> StartsWith(r, heading) && EndsWith(r, text) && |r| == |heading| + |text|
  {
    if text == "" then "" else heading + text
  }

  /** The template's opening: the topic and the brand mood. */
  function Head(topic: Topic, brand: string): string {
    topic.subject + ", " + topic.materials + ", " + topic.details + ". Brand mood: " + brand + ". "
  }

  /** The template's close: the container style and what to avoid. */
  function Tail(style: string, avoid: string): string {
    " Style: " + style + ". Avoid: " + avoid + "."
  }

  /**
   `buildPrompt`: the page topic and the brand mood, then the keywords and
   context fragments separated by one space, then the container style and
   what to avoid.
   */
  function BuildPrompt(rules: Rules, page: string, container: string, brand: string, keywords: string, desc: string):
    (r: Result<string, BuildError>)
    ensures r.Err? <==> ContainerRuleOf(rules, container).Err?
    ensures r.Ok? ==>
      var cont := ContainerRuleOf(rules, container).value;
      var middle := Fragment(KeywordsLabel, keywords) + " " + Fragment(ContextLabel, desc);
      && |Head(PageTopic(rules, page), brand)| + |Tail(cont.style, Avoid(rules.negatives, cont.avoid))| <= |r.value|
      && StartsWith(r.value, Head(PageTopic(rules, page), brand))
      && EndsWith(r.value, Tail(cont.style, Avoid(rules.negatives, cont.avoid)))
      && r.value[|Head(PageTopic(rules, page), brand)|..|r.value| - |Tail(cont.style, Avoid(rules.negatives, cont.avoid))|]
         == middle
  {
    match ContainerRuleOf(rules, container)
    case Err(e) => Err(e)
    case Ok(cont) =>
      var head := Head(PageTopic(rules, page), brand);
      var middle := Fragment(KeywordsLabel, keywords) + " " + Fragment(ContextLabel, desc);
      var tail := Tail(cont.style, Avoid(rules.negatives, cont.avoid));
      var p := head + middle + tail;
      Concat3(p, head, middle, tail);
      Ok(p)
  }

  /**
   With neither keywords nor a description the middle of the template is a
   single space, so three spaces separate the brand mood from the style.
   */
  lemma BarePrompt(rules: Rules, page: string, brand: string)
    requires HeroContainer in rules.containers
    ensures var cont := rules.containers[HeroContainer];
      BuildPrompt(rules, page, HeroContainer, brand, "", "") ==
        Ok(Head(PageTopic(rules, page), brand) + " " + Tail(cont.style, Avoid(rules.negatives, cont.avoid)))
  {
    var cont := rules.containers[HeroContainer];
    var r := BuildPrompt(rules, page, HeroContainer, brand, "", "");
    assert Fragment(KeywordsLabel, "") + " " + Fragment(ContextLabel, "") == " ";
    Concat3(r.value, Head(PageTopic(rules, page), brand), " ", Tail(cont.style, Avoid(rules.negatives, cont.avoid)));
  }

  // ---------------------------------------------------------------------------
  // Keywords

  /** Whether a piece has no white space at either end. */
  predicate Trimmed(s: string) {
    s == [] || (!IsSpace(s[0]) && !IsSpace(s[|s| - 1]))
  }

  function TrimAll(parts: seq<string>): (r: seq<string>)
    ensures |r| == |parts| && forall i :: 0 <= i < |parts| ==> r[i] == Trim(parts[i])
  {
    seq(|parts|, i requires 0 <= i < |parts| => Trim(parts[i]))
  }

  /**
   `keywords.split(',').map(s => s.trim()).filter(Boolean)`: the non-empty
   comma-separated pieces, trimmed, in their order.
   */
  function KeywordList(text: string): (r: seq<string>)
    ensures forall i :: 0 <= i < |r| ==> r[i] != "" && ',' !in r[i] && Trimmed(r[i])
    ensures forall k :: k in r ==> exists piece :: piece in Split(text, ',') && k == Trim(piece)
  {
    var r := Filter(NonEmpty, TrimAll(Split(text, ',')));
    KeywordsClean(text, r);
    KeywordsFromPieces(text, r);
    r
  }

  /** The kept pieces are non-empty, trimmed and comma-free. */
  lemma KeywordsClean(text: string, r: seq<string>)
    requires r == Filter(NonEmpty, TrimAll(Split(text, ',')))
    ensures forall i :: 0 <= i < |r| ==> r[i] != "" && ',' !in r[i] && Trimmed(r[i])
  {
    var trimmed := TrimAll(Split(text, ','));
    forall i | 0 <= i < |r| ensures ',' !in r[i] && Trimmed(r[i]) {
      assert r[i] in trimmed;
      var j :| 0 <= j < |trimmed| && trimmed[j] == r[i];
      var piece := Split(text, ',')[j];
      assert ',' !in piece;
    }
  }

  /** Every kept piece is the trimmed text of a piece of the split. */
  lemma KeywordsFromPieces(text: string, r: seq<string>)
    requires r == Filter(NonEmpty, TrimAll(Split(text, ',')))
    ensures forall k :: k in r ==> exists piece :: piece in Split(text, ',') && k == Trim(piece)
  {
    var trimmed := TrimAll(Split(text, ','));
    forall k | k in r ensures exists piece :: piece in Split(text, ',') && k == Trim(piece) {
      var j :| 0 <= j < |trimmed| && trimmed[j] == k;
      assert Split(text, ',')[j] in Split(text, ',');
    }
  }

  /** `meta.keywords`: the keyword list, or `[]` for an empty keywords flag. */
  function MetaKeywords(text: string): (r: seq<string>)
    ensures r == KeywordList(text)
  {
    if text != "" then KeywordList(text) else
    NoKeywords();
    []
  }

  /** An empty keywords flag holds no keyword. */
  lemma NoKeywords()
    ensures KeywordList("") == []
  {
    assert Split("", ',') == [""];
    assert TrimAll([""]) == [Trim("")];
    FilterSnoc(NonEmpty, [], Trim(""));
  }

  /** Splitting after a separator adds the text that follows it as one piece. */
  lemma {:induction false} SplitAppend(a: string, sep: char, b: string)
    requires sep !in b
    ensures Split(a + [sep] + b, sep) == Split(a, sep) + [b]
    decreases |b|
  {
    if b == [] {
      assert a + [sep] + b == a + [sep];
      assert DropLast(a + [sep]) == a;
    } else {
      var s := a + [sep] + b;
      assert DropLast(s) == a + [sep] + DropLast(b);
      assert Last(s) == Last(b) && Last(b) in b;
      assert forall c :: c in DropLast(b) ==> c in b;
      SplitAppend(a, sep, DropLast(b));
      assert b == DropLast(b) + [Last(b)];
    }
  }

  /** Splitting the join of separator-free pieces gives the pieces back. */
  lemma {:induction false} SplitJoin(parts: seq<string>, sep: char)
    requires |parts| >= 1
    requires forall i :: 0 <= i < |parts| ==> sep !in parts[i]
    ensures Split(Join(parts, sep), sep) == parts
    decreases |parts|
  {
    if |parts| == 1 {
      SplitNoSeparator(parts[0], sep);
    } else {
      var init := DropLast(parts);
      assert forall i :: 0 <= i < |init| ==> init[i] == parts[i];
      SplitJoin(init, sep);
      SplitJoinStep(parts, sep);
    }
  }

  /** The last piece of a join splits off as itself. */
  lemma SplitJoinStep(parts: seq<string>, sep: char)
    requires |parts| >= 2 && sep !in Last(parts)
    ensures Split(Join(parts, sep), sep) == Split(Join(DropLast(parts), sep), sep) + [Last(parts)]
  {
    SplitAppend(Join(DropLast(parts), sep), sep, Last(parts));
  }

  /** Trimming text with no white space at its ends leaves it unchanged. */
  lemma TrimTrimmed(s: string)
    requires Trimmed(s)
    ensures Trim(s) == s
  {
    assert TrimStart(s) == s;
    assert TrimEnd(s) == s;
  }

  /** The keywords a comma-free piece contributes: its trimmed text, or none when that is empty. */
  function PieceKeywords(piece: string): seq<string> {
    if Trim(piece) == "" then [] else [Trim(piece)]
  }

  /** Text without a comma is one piece. */
  lemma {:induction false} KeywordListOfPiece(piece: string)
    requires ',' !in piece
    ensures KeywordList(piece) == PieceKeywords(piece)
  {
    SplitNoSeparator(piece, ',');
    assert TrimAll([piece]) == [] + [Trim(piece)];
    FilterSnoc(NonEmpty, [], Trim(piece));
  }

  /**
   One more comma and piece add that piece's keywords at the end, whatever
   came before: with `KeywordListOfPiece` this fixes the list of every text,
   white space around commas and empty pieces included.
   */
  lemma {:induction false} KeywordListSnoc(text: string, piece: string)
    requires ',' !in piece
    ensures KeywordList(text + "," + piece) == KeywordList(text) + PieceKeywords(piece)
  {
    var parts := Split(text, ',');
    assert text + "," + piece == text + [','] + piece;
    SplitAppend(text, ',', piece);
    assert TrimAll(parts + [piece]) == TrimAll(parts) + [Trim(piece)];
    FilterSnoc(NonEmpty, TrimAll(parts), Trim(piece));
  }

  /** A keyword that needs no trimming and holds no comma. */
  predicate CleanKeyword(k: string) {
    k != "" && ',' !in k && Trimmed(k)
  }

  /** The usual form: two keywords with a space after the comma read back as the two keywords. */
  lemma {:induction false} KeywordListOfPair(a: string, b: string)
    requires CleanKeyword(a) && CleanKeyword(b)
    ensures KeywordList(a + ", " + b) == [a, b]
  {
    var spaced := [' '] + b;
    assert a + ", " + b == a + "," + spaced;
    assert ',' !in spaced;
    KeywordListOfPiece(a);
    KeywordListSnoc(a, spaced);
    TrimTrimmed(a);
    TrimLeadingSpace(' ', b);
    TrimTrimmed(b);
  }

  /** White space in front does not survive trimming. */
  lemma TrimLeadingSpace(c: char, s: string)
    requires IsSpace(c)
    ensures Trim([c] + s) == Trim(s)
  {
    TrimStartSpace(c, s);
  }

  /**
   Round trip: a list of non-empty, trimmed keywords without commas, written
   comma-separated, reads back as the same list in the same order.
   */
  lemma KeywordsRoundTrip(keywords: seq<string>)
    requires |keywords| >= 1
    requires forall i :: 0 <= i < |keywords| ==> keywords[i] != "" && ',' !in keywords[i] && Trimmed(keywords[i])
    ensures KeywordList(Join(keywords, ',')) == keywords
  {
    SplitJoin(keywords, ',');
    forall i | 0 <= i < |keywords| ensures Trim(keywords[i]) == keywords[i] {
      TrimTrimmed(keywords[i]);
    }
    assert TrimAll(keywords) == keywords;
    FilterAll(NonEmpty, keywords);
  }

  // ---------------------------------------------------------------------------
  // The metadata

  /** The alt text, or `"{brand} {container} visual"` when it is empty. */
  function AltText(alt: string, brand: string, container: string): (r: string)
    ensures alt != "" ==> r == alt
    ensures alt == "" ==> r == brand + " " + container + " visual"
  {
    if alt != "" then alt else brand + " " + container + " visual"
  }

  /**
   The metadata object: the built prompt, the page and container as given,
   the alt text with its default, the description and the keyword list.
   Left-out flags take their defaults: the brand `GrowCologne` and empty
   keywords, description and alt text.
   */
  function BuildMeta(rules: Rules, args: Args): (r: Result<PageMeta, BuildError>)
    ensures r.Err? <==> ContainerRuleOf(rules, args.container).Err?
    ensures r.Ok? ==>
      var brand := args.brand.GetOr(DefaultBrand);
      var keywords := args.keywords.GetOr("");
      var desc := args.desc.GetOr("");
      && BuildPrompt(rules, args.page, args.container, brand, keywords, desc) == Ok(r.value.prompt)
      && r.value.page == args.page && r.value.container == args.container
      && r.value.alt == AltText(args.alt.GetOr(""), brand, args.container)
      && r.value.description == desc
      && r.value.keywords == KeywordList(keywords)
  {
    var brand := args.brand.GetOr(DefaultBrand);
    var keywords := args.keywords.GetOr("");
    var desc := args.desc.GetOr("");
    match BuildPrompt(rules, args.page, args.container, brand, keywords, desc)
    case Err(e) => Err(e)
    case Ok(prompt) =>
      Ok(PageMeta(prompt, args.page, args.container, AltText(args.alt.GetOr(""), brand, args.container), desc,
                  MetaKeywords(keywords)))
  }

  /** With every optional flag left out, the alt text names the default brand and the container. */
  lemma {:induction false} DefaultAlt(rules: Rules, page: string, container: string)
    requires HeroContainer in rules.containers
    ensures var r := BuildMeta(rules, Args(page, container, None, None, None, None));
      && r.Ok?
      && r.value.alt == DefaultBrand + " " + container + " visual"
      && r.value.keywords == []
  {
    assert ContainerRuleOf(rules, container).Ok?;
    NoKeywords();
  }
}

=== FILE: results.dfy ===
/**
 Optional values and success/failure results shared by every module of the
 asset pipeline model. `None` stands for JavaScript's `null`/`undefined`; an
 `Err` stands for a thrown exception or a `process.exit(1)`.
 */
module Results {

  datatype Option<+T> = None | Some(value: T) {

    /** The carried value, or `default` when there is none (`x ?? default`). */
    function GetOr(default: T): T {
      match this
      case Some(v) => v
      case None => default
    }
  }

  datatype Result<+T, +E> = Ok(value: T) | Err(error: E) {

    /** Forgets the error, keeping only whether a value was produced. */
    function ToOption(): Option<T> {
      match this
      case Ok(v) => Some(v)
      case Err(_) => None
    }
  }
}

=== FILE: seqs.dfy ===
/**
 Sequence helpers in the shape JavaScript's array methods have: `filter`, the
 last element, and the facts the other modules need about them.
 */
module Seqs {

  function Last<T>(s: seq<T>): T
    requires |s| > 0
  {
    s[|s| - 1]
  }

  function DropLast<T>(s: seq<T>): seq<T>
    requires |s| > 0
  {
    s[..|s| - 1]
  }

  /** The three parts of a concatenation, read back by slicing. */
  lemma ConcatParts<T>(a: seq<T>, b: seq<T>, c: seq<T>)
    ensures (a + b + c)[..|a|] == a
    ensures (a + b + c)[|a|..|a| + |b|] == b
    ensures (a + b + c)[|a| + |b|..] == c
    ensures forall i :: |a| <= i < |a| + |b| ==> (a + b + c)[i] == b[i - |a|]
  {
  }

  /** Appending `b` is appending all of `b` but its last element, then that element. */
  lemma ConcatSnoc<T>(a: seq<T>, b: seq<T>)
    requires b != []
    ensures a + b == (a + DropLast(b)) + [Last(b)] && b == DropLast(b) + [Last(b)]
    ensures DropLast(b) != [] ==> Last(a + DropLast(b)) == Last(DropLast(b))
    ensures DropLast(b) == [] ==> a + DropLast(b) == a
    ensures DropLast(b) != [] ==> DropLast(b)[0] == b[0]
  {
  }

  /** A prefix of the suffix from `i` is the slice from `i`, read at shifted positions. */
  lemma SuffixPrefix<T>(s: seq<T>, i: nat, m: nat)
    requires i + m <= |s|
    ensures s[i..][..m] == s[i..i + m]
    ensures forall k :: i <= k < |s| ==> s[i..][k - i] == s[k]
  {
  }

  /** Appending nothing, or appending to nothing. */
  lemma ConcatEmpty<T>(a: seq<T>, b: seq<T>)
    ensures b == [] ==> a + b == a
    ensures a == [] ==> a + b == b
  {
  }

  lemma ConcatAssoc<T>(x: seq<T>, y: seq<T>, z: seq<T>)
    ensures x + y + z == x + (y + z)
  {
  }

  /** `s.filter(p)`: the elements that satisfy `p`, in their original order. */
  function Filter<T(!new)>(p: T -> bool, s: seq<T>): (r: seq<T>)
    ensures |r| <= |s|
    ensures forall i :: 0 <= i < |r| ==> p(r[i])
    ensures forall x :: x in r <==> x in s && p(x)
    decreases |s|
  {
    if s == [] then []
    else Filter(p, DropLast(s)) + (if p(Last(s)) then [Last(s)] else [])
  }

  /** Filtering one more element at the end. */
  lemma FilterSnoc<T(!new)>(p: T -> bool, s: seq<T>, x: T)
    ensures Filter(p, s + [x]) == Filter(p, s) + (if p(x) then [x] else [])
  {
    assert DropLast(s + [x]) == s;
    assert Last(s + [x]) == x;
  }

  /** Filtering a concatenation filters each part. */
  lemma {:induction false} FilterConcat<T(!new)>(p: T -> bool, a: seq<T>, b: seq<T>)
    ensures Filter(p, a + b) == Filter(p, a) + Filter(p, b)
    decreases |b|
  {
    if b == [] {
      assert a + b == a;
    } else {
      assert DropLast(a + b) == a + DropLast(b);
      assert Last(a + b) == Last(b);
      FilterConcat(p, a, DropLast(b));
    }
  }

  /** Ends the filter rejects entirely add nothing to it. */
  lemma FilterEmptyEnds<T(!new)>(p: T -> bool, a: seq<T>, b: seq<T>, c: seq<T>)
    requires Filter(p, a) == [] && Filter(p, c) == []
    ensures Filter(p, a + b + c) == Filter(p, b)
  {
    FilterConcat(p, a + b, c);
    FilterConcat(p, a, b);
    assert [] + Filter(p, b) + [] == Filter(p, b);
  }

  /** Cutting off ends the filter rejects does not change the filter. */
  lemma {:induction false} FilterMiddle<T(!new)>(p: T -> bool, s: seq<T>, i: nat, j: nat)
    requires i <= j <= |s|
    requires forall k :: 0 <= k < i ==> !p(s[k])
    requires forall k :: j <= k < |s| ==> !p(s[k])
    ensures Filter(p, s[i..j]) == Filter(p, s)
  {
    var a, b, c := s[..i], s[i..j], s[j..];
    assert s == a + b + c;
    assert forall k :: 0 <= k < |a| ==> !p(a[k]);
    assert forall k :: 0 <= k < |c| ==> c[k] == s[j + k];
    FilterNone(p, a);
    FilterNone(p, c);
    FilterEmptyEnds(p, a, b, c);
  }

  /** A filter keeps everything exactly when every element passes. */
  lemma {:induction false} FilterAll<T(!new)>(p: T -> bool, s: seq<T>)
    requires forall i :: 0 <= i < |s| ==> p(s[i])
    ensures Filter(p, s) == s
    decreases |s|
  {
    if s != [] {
      FilterAll(p, DropLast(s));
    }
  }

  /** A filter keeps nothing when no element passes. */
  lemma {:induction false} FilterNone<T(!new)>(p: T -> bool, s: seq<T>)
    requires forall i :: 0 <= i < |s| ==> !p(s[i])
    ensures Filter(p, s) == []
    decreases |s|
  {
    if s != [] {
      FilterNone(p, DropLast(s));
    }
  }
}

=== FILE: strings.dfy ===
/**
 String helpers with JavaScript's semantics: prefix/suffix tests, `slice`,
 `toLowerCase`, `trim`, `split` and `join` on one separator character,
 `String(n)` for natural numbers, `parseInt` on a run of decimal digits and
 `padStart`.
 */
module Strings {
  import opened Results
  import opened Seqs

  predicate StartsWith(s: string, prefix: string) {
    |prefix| <= |s| && s[..|prefix|] == prefix
  }

  predicate EndsWith(s: string, suffix: string) {
    |suffix| <= |s| && s[|s| - |suffix|..] == suffix
  }

  /** A prefix of `a` is a prefix of `a + b`; a suffix of `b` is a suffix of `a + b`. */
  lemma ConcatKeepsEnds(a: string, b: string, prefix: string, suffix: string)
    ensures StartsWith(a, prefix) ==> StartsWith(a + b, prefix)
    ensures EndsWith(b, suffix) ==> EndsWith(a + b, suffix)
  {
    if StartsWith(a, prefix) {
      assert (a + b)[..|prefix|] == a[..|prefix|];
    }
    if EndsWith(b, suffix) {
      assert (a + b)[|a + b| - |suffix|..] == b[|b| - |suffix|..];
    }
  }

  /** A text made of three parts, and the three parts read back from it. */
  lemma Concat3(s: string, a: string, b: string, c: string)
    ensures s == a + b + c <==>
      |a| + |c| <= |s| && StartsWith(s, a) && EndsWith(s, c) && s[|a|..|s| - |c|] == b
  {
    if s == a + b + c {
      assert s[..|a|] == a;
      assert s[|s| - |c|..] == c;
      assert s[|a|..|s| - |c|] == b;
    }
    if |a| + |c| <= |s| && StartsWith(s, a) && EndsWith(s, c) && s[|a|..|s| - |c|] == b {
      assert s == s[..|a|] + s[|a|..|s| - |c|] + s[|s| - |c|..];
    }
  }

  /** `s.slice(0, n)` for a non-negative `n`. */
  function Take(s: string, n: nat): (r: string)
    ensures |r| == if |s| < n then |s| else n
    ensures StartsWith(s, r)
  {
    if |s| <= n then s else s[..n]
  }

  // ---------------------------------------------------------------------------
  // Character classes

  predicate IsDigit(c: char) {
    '0' <= c <= '9'
  }

  predicate IsUpperAscii(c: char) {
    'A' <= c <= 'Z'
  }

  /** The regular-expression class `[a-z0-9]`. */
  predicate IsLowerAlnum(c: char) {
    'a' <= c <= 'z' || IsDigit(c)
  }

  /**
   JavaScript's WhiteSpace and LineTerminator code points: the class `\s` of
   a regular expression and the characters `String.prototype.trim` removes.
   */
  predicate IsSpace(c: char) {
    || c == '\t' || c == '\n' || c == '\U{000B}' || c == '\U{000C}' || c == '\r'
    || c == ' ' || c == '\U{00A0}' || c == '\U{1680}'
    || ('\U{2000}' <= c <= '\U{200A}')
    || c == '\U{2028}' || c == '\U{2029}' || c == '\U{202F}' || c == '\U{205F}'
    || c == '\U{3000}' || c == '\U{FEFF}'
  }

  /**
   JavaScript truthiness of an optional text: `None` stands for `undefined`
   or `null`, and the empty string is falsy too.
   */
  predicate IsTruthy(o: Option<string>) {
    o.Some? && o.value != ""
  }

  /** `x || null` for an optional text: falsy values become `null`. */
  function OrNull(o: Option<string>): (r: Option<string>)
    ensures IsTruthy(o) ==> r == o
    ensures !IsTruthy(o) ==> r == None
  {
    if IsTruthy(o) then o else None
  }

  /** `x || fallback` for an optional text. */
  function OrElse(o: Option<string>, fallback: string): (r: string)
    ensures IsTruthy(o) ==> r == o.value
    ensures !IsTruthy(o) ==> r == fallback
  {
    if IsTruthy(o) then o.value else fallback
  }

  predicate AllDigits(s: string) {
    forall i :: 0 <= i < |s| ==> IsDigit(s[i])
  }

  // ---------------------------------------------------------------------------
  // Lower case

  /**
   `toLowerCase` of one code point. ASCII capitals map to small letters; the
   KELVIN SIGN and the CAPITAL I WITH DOT ABOVE are the only other code points
   whose lower case contains an ASCII letter. Every other code point is kept:
   its real lower case is again outside ASCII, which is all the callers of
   this model can observe.
   */
  function LowerChar(c: char): (r: string)
    ensures forall i :: 0 <= i < |r| ==> !IsUpperAscii(r[i])
  {
    if IsUpperAscii(c) then [(c as int + 32) as char]
    else if c == '\U{212A}' then "k"
    else if c == '\U{0130}' then "i\U{0307}"
    else [c]
  }

  /** `s.toLowerCase()`. */
  function Lower(s: string): (r: string)
    ensures forall i :: 0 <= i < |r| ==> !IsUpperAscii(r[i])
    decreases |s|
  {
    if s == [] then [] else LowerChar(s[0]) + Lower(s[1..])
  }

  /** One step of `Lower`: the first character, then the rest. */
  lemma LowerFirst(s: string)
    requires s != []
    ensures Lower(s) == LowerChar(s[0]) + Lower(s[1..])
  {
  }

  lemma {:induction false} LowerConcat(a: string, b: string)
    ensures Lower(a + b) == Lower(a) + Lower(b)
    decreases |a|
  {
    if a == [] {
      assert a + b == b;
    } else {
      var t := a[1..];
      assert (a + b)[0] == a[0] && (a + b)[1..] == t + b;
      LowerConcat(t, b);
      LowerFirst(a + b);
      LowerFirst(a);
      var head, rest, tail := LowerChar(a[0]), Lower(t), Lower(b);
      assert head + (rest + tail) == (head + rest) + tail;
    }
  }

  /** Lowering an already lowered string changes nothing. */
  lemma {:induction false} LowerIdempotent(s: string)
    ensures Lower(Lower(s)) == Lower(s)
    decreases |s|
  {
    if s != [] {
      var c := s[0];
      LowerConcat(LowerChar(c), Lower(s[1..]));
      LowerIdempotent(s[1..]);
      var lc := LowerChar(c);
      if IsUpperAscii(c) || (c != '\U{212A}' && c != '\U{0130}') {
        assert lc == [lc[0]] && lc[1..] == [];
        assert Lower(lc) == LowerChar(lc[0]) + Lower([]);
      } else if c == '\U{212A}' {
        assert Lower(lc) == LowerChar('k') + Lower([]);
      } else {
        assert lc[1..] == "\U{0307}";
        assert Lower(lc) == LowerChar('i') + Lower("\U{0307}");
        assert Lower("\U{0307}") == LowerChar('\U{0307}') + Lower([]);
      }
    }
  }

  // ---------------------------------------------------------------------------
  // Trimming

  function TrimStart(s: string): (r: string)
    ensures EndsWith(s, r)
    ensures forall i :: 0 <= i < |s| - |r| ==> IsSpace(s[i])
    ensures r == [] || !IsSpace(r[0])
    decreases |s|
  {
    if s != [] && IsSpace(s[0]) then TrimStart(s[1..]) else s
  }

  /** A leading white-space character is dropped by `TrimStart`. */
  lemma TrimStartSpace(c: char, s: string)
    requires IsSpace(c)
    ensures TrimStart([c] + s) == TrimStart(s)
  {
    var t := [c] + s;
    assert t[0] == c && t[1..] == s;
  }

  function TrimEnd(s: string): (r: string)
    ensures StartsWith(s, r)
    ensures forall i :: |r| <= i < |s| ==> IsSpace(s[i])
    ensures r == [] || !IsSpace(r[|r| - 1])
    decreases |s|
  {
    if s != [] && IsSpace(s[|s| - 1]) then TrimEnd(s[..|s| - 1]) else s
  }

  /**
   `s.trim()`: the text between the leading and the trailing white space,
   which is empty exactly when the whole string is white space.
   */
  function Trim(s: string): (r: string)
    ensures r == [] || (!IsSpace(r[0]) && !IsSpace(r[|r| - 1]))
    ensures r == [] <==> forall i :: 0 <= i < |s| ==> IsSpace(s[i])
    ensures forall c :: c in r ==> c in s
  {
    TrimFacts(s);
    TrimEnd(TrimStart(s))
  }

  /**
   `trim` removes exactly the white space at both ends: the result is the
   slice of `s` between a white-space prefix and a white-space suffix.
   With the first clause of `Trim`'s contract (no white space at either end
   of the result) this fixes the result for every input.
   */
  lemma TrimIsSlice(s: string)
    ensures exists i, j :: 0 <= i <= j <= |s| && Trim(s) == s[i..j] && Padding(s, i, j)
  {
    var r := TrimEnd(TrimStart(s));
    var i := |s| - |TrimStart(s)|;
    assert Trim(s) == r;
    TrimSlice(s);
    assert i + |r| <= |s| && r == s[i..i + |r|] && Padding(s, i, i + |r|);
  }

  /** Everything before `i` and from `j` on is white space. */
  predicate Padding(s: string, i: nat, j: nat)
    requires i <= j <= |s|
  {
    (forall k :: 0 <= k < i ==> IsSpace(s[k])) && (forall k :: j <= k < |s| ==> IsSpace(s[k]))
  }

  /** Trimming keeps the slice between the leading and the trailing white space. */
  lemma TrimSlice(s: string)
    ensures var i, r := |s| - |TrimStart(s)|, TrimEnd(TrimStart(s));
      i + |r| <= |s| && r == s[i..i + |r|] && Padding(s, i, i + |r|)
  {
    var t := TrimStart(s);
    var r := TrimEnd(t);
    var k := |s| - |t|;
    assert t == s[k..];
    assert r == t[..|r|];
    InnerSlice(s, t, r, k);
  }

  /** A prefix `r` of the suffix `t` of `s` starting at `k`, with white space after it in `t`. */
  lemma InnerSlice(s: string, t: string, r: string, k: nat)
    requires k <= |s| && t == s[k..] && |r| <= |t| && r == t[..|r|]
    requires forall i :: 0 <= i < k ==> IsSpace(s[i])
    requires forall i :: |r| <= i < |t| ==> IsSpace(t[i])
    ensures k + |r| <= |s| && r == s[k..k + |r|] && Padding(s, k, k + |r|)
  {
    assert r == s[k..k + |r|];
    forall m | k + |r| <= m < |s| ensures IsSpace(s[m]) {
      assert s[m] == t[m - k];
    }
  }

  lemma TrimFacts(s: string)
    ensures var r := TrimEnd(TrimStart(s));
      && (r == [] <==> forall i :: 0 <= i < |s| ==> IsSpace(s[i]))
      && (forall c :: c in r ==> c in s)
  {
    var t := TrimStart(s);
    var r := TrimEnd(t);
    var k := |s| - |t|;
    assert t == s[k..];
    assert r == t[..|r|];
    forall c | c in r ensures c in s {
      var j :| 0 <= j < |r| && r[j] == c;
      assert s[k + j] == c;
    }
    if r == [] {
      assert t == [];
    }
  }

  // ---------------------------------------------------------------------------
  // Split and join

  /**
   `s.split(sep)` for a one-character separator: the maximal separator-free
   pieces, always at least one (the empty string splits into `[""]`).
   */
  function Split(s: string, sep: char): (parts: seq<string>)
    ensures |parts| >= 1
    ensures forall i :: 0 <= i < |parts| ==> sep !in parts[i]
    decreases |s|
  {
    if s == [] then [""]
    else
      var init := Split(DropLast(s), sep);
      var c := Last(s);
      if c == sep then init + [""]
      else DropLast(init) + [Last(init) + [c]]
  }

  /** `parts.join(sep)`. */
  function Join(parts: seq<string>, sep: char): string
    decreases |parts|
  {
    if parts == [] then ""
    else if |parts| == 1 then parts[0]
    else Join(DropLast(parts), sep) + [sep] + Last(parts)
  }

  /** Joining with one more, empty, piece adds one separator. */
  lemma JoinSnocEmpty(parts: seq<string>, sep: char)
    requires |parts| >= 1
    ensures Join(parts + [""], sep) == Join(parts, sep) + [sep]
  {
    var longer := parts + [""];
    assert DropLast(longer) == parts;
    assert Join(longer, sep) == Join(parts, sep) + [sep] + "";
  }

  /** Joining after growing the last piece by `c` grows the joined text by `c`. */
  lemma JoinGrowLast(parts: seq<string>, c: char, sep: char)
    requires |parts| >= 1
    ensures Join(DropLast(parts) + [Last(parts) + [c]], sep) == Join(parts, sep) + [c]
  {
    var grown := DropLast(parts) + [Last(parts) + [c]];
    if |parts| == 1 {
      assert grown == [parts[0] + [c]];
    } else {
      assert DropLast(grown) == DropLast(parts);
      assert Last(grown) == Last(parts) + [c];
      var j := Join(DropLast(parts), sep);
      assert Join(parts, sep) == j + [sep] + Last(parts);
      assert Join(grown, sep) == j + [sep] + (Last(parts) + [c]);
    }
  }

  /** Joining the pieces of a split gives back the original text. */
  lemma {:induction false} JoinSplit(s: string, sep: char)
    ensures Join(Split(s, sep), sep) == s
    decreases |s|
  {
    if s != [] {
      var s' := DropLast(s);
      var c := Last(s);
      var init := Split(s', sep);
      JoinSplit(s', sep);
      assert s == s' + [c];
      if c == sep {
        JoinSnocEmpty(init, sep);
      } else {
        JoinGrowLast(init, c, sep);
      }
    }
  }

  /** The last piece of a split is the separator-free tail of the text. */
  lemma {:induction false} SplitLast(s: string, sep: char, k: nat)
    requires k <= |s|
    requires sep !in s[k..]
    requires k == 0 || s[k - 1] == sep
    ensures Last(Split(s, sep)) == s[k..]
    decreases |s|
  {
    if s != [] {
      if k == |s| {
        assert Last(s) == sep;
      } else {
        assert Last(s) in s[k..];
        assert DropLast(s)[k..] == DropLast(s[k..]);
        SplitLast(DropLast(s), sep, k);
        assert s[k..] == DropLast(s)[k..] + [Last(s)];
      }
    }
  }

  /** Splitting text with no separator gives the text itself. */
  lemma {:induction false} SplitNoSeparator(s: string, sep: char)
    requires sep !in s
    ensures Split(s, sep) == [s]
    decreases |s|
  {
    if s != [] {
      assert sep !in DropLast(s) by {
        assert forall c :: c in DropLast(s) ==> c in s;
      }
      SplitNoSeparator(DropLast(s), sep);
      assert Last(s) in s;
      assert DropLast(s) + [Last(s)] == s;
    }
  }

  // ---------------------------------------------------------------------------
  // Numbers

  function DigitValue(c: char): nat
    requires IsDigit(c)
  {
    c as int - '0' as int
  }

  function DigitChar(d: nat): (c: char)
    requires d < 10
    ensures IsDigit(c) && DigitValue(c) == d
  {
    ('0' as int + d) as char
  }

  /** The value `parseInt(s, 10)` gives a run of decimal digits. */
  function DigitsValue(s: string): nat
    requires AllDigits(s)
    decreases |s|
  {
    if s == [] then 0 else 10 * DigitsValue(DropLast(s)) + DigitValue(Last(s))
  }

  /**
   `String(n)` for a natural number: its decimal digits, without a leading
   zero, reading back as `n`.
   */
  function NatToString(n: nat): (r: string)
    ensures |r| >= 1 && AllDigits(r)
    ensures r[0] == '0' <==> n == 0
    ensures |r| == 1 <==> n < 10
    ensures DigitsValue(r) == n
    decreases n
  {
    if n < 10 then [DigitChar(n)]
    else
      var r := NatToString(n / 10) + [DigitChar(n % 10)];
      assert DropLast(r) == NatToString(n / 10);
      r
  }

  /** `s.padStart(width, fill)` for a one-character `fill`. */
  function PadStart(s: string, width: nat, fill: char): (r: string)
    ensures |r| == if |s| < width then width else |s|
    ensures EndsWith(r, s)
    ensures forall i :: 0 <= i < |r| - |s| ==> r[i] == fill
    decreases width - |s|
  {
    if |s| >= width then s
    else
      var r := PadStart([fill] + s, width, fill);
      assert r[|r| - |s|..] == ([fill] + s)[1..];
      r
  }
}

=== FILE: utils.dfy ===
/**
 The helpers of `src/utils.js`: `slug`, `ts`, `fileStem`, `isTrue` and the
 `retry` attempt loop. The clock reaches `ts` as the ISO text it would read;
 the backoff delay (random jitter, floating point) is reduced to the record of
 after which attempts the loop sleeps.
 */
module Utils {
  import opened Results
  import opened Seqs
  import opened Strings

  // ---------------------------------------------------------------------------
  // slug

  predicate IsSlugChar(c: char) {
    IsLowerAlnum(c) || c == '-'
  }

  predicate NoDoubleDash(s: string) {
    forall i :: 0 <= i < |s| - 1 ==> !(s[i] == '-' && s[i + 1] == '-')
  }

  /**
   `replace(/[^a-z0-9]+/g, '-')`: every maximal run of characters outside
   `[a-z0-9]` becomes a single '-'.
   */
  function CollapseRuns(s: string): (r: string)
    ensures forall i :: 0 <= i < |r| ==> IsSlugChar(r[i])
    ensures NoDoubleDash(r)
    ensures |r| <= |s|
    ensures s != [] ==> r != [] && (Last(r) == '-' <==> !IsLowerAlnum(Last(s)))
    decreases |s|
  {
    if s == [] then []
    else
      var r' := CollapseRuns(DropLast(s));
      var c := Last(s);
      if IsLowerAlnum(c) then r' + [c]
      else if DropLast(s) != [] && !IsLowerAlnum(Last(DropLast(s))) then r'
      else r' + ['-']
  }

  /** Collapsing runs keeps every letter and digit, in order. */
  lemma {:induction false} CollapseKeepsAlnum(s: string)
    ensures Filter(IsLowerAlnum, CollapseRuns(s)) == Filter(IsLowerAlnum, s)
    decreases |s|
  {
    if s != [] {
      var s', c := DropLast(s), Last(s);
      var r' := CollapseRuns(s');
      CollapseKeepsAlnum(s');
      assert s == s' + [c];
      FilterSnoc(IsLowerAlnum, s', c);
      if IsLowerAlnum(c) {
        assert CollapseRuns(s) == r' + [c];
        FilterSnoc(IsLowerAlnum, r', c);
      } else if s' != [] && !IsLowerAlnum(Last(s')) {
        assert CollapseRuns(s) == r';
      } else {
        assert CollapseRuns(s) == r' + ['-'];
        FilterSnoc(IsLowerAlnum, r', '-');
      }
    }
  }

  /** A non-empty run of characters outside `[a-z0-9]` becomes one '-'. */
  lemma {:induction false} CollapseOfRun(g: string)
    requires g != []
    requires forall i :: 0 <= i < |g| ==> !IsLowerAlnum(g[i])
    ensures CollapseRuns(g) == "-"
    decreases |g|
  {
    if |g| > 1 {
      assert Last(DropLast(g)) == g[|g| - 2];
      CollapseOfRun(DropLast(g));
    }
  }

  /** Letters and digits are kept as they are. */
  lemma {:induction false} CollapseOfWord(w: string)
    requires forall i :: 0 <= i < |w| ==> IsLowerAlnum(w[i])
    ensures CollapseRuns(w) == w
  {
    CollapseOfSlugShape(w);
  }

  /**
   Collapsing works piece by piece when the cut does not fall inside a run:
   a letter or digit on one side of it keeps the runs on either side apart.
   */
  lemma {:induction false} CollapseConcat(a: string, b: string)
    requires a == [] || b == [] || IsLowerAlnum(Last(a)) || IsLowerAlnum(b[0])
    ensures CollapseRuns(a + b) == CollapseRuns(a) + CollapseRuns(b)
    decreases |b|
  {
    ConcatEmpty(a, b);
    if a != [] && b != [] {
      ConcatSnoc(a, b);
      CollapseConcat(a, DropLast(b));
      CollapseConcatStep(a, b);
    }
  }

  /** What collapsing adds for one more character `c` after `s`. */
  function CollapseTail(s: string, c: char): string {
    if IsLowerAlnum(c) then [c]
    else if s != [] && !IsLowerAlnum(Last(s)) then []
    else "-"
  }

  /** One more character: collapsing `s + [c]` extends the collapse of `s`. */
  lemma CollapseSnoc(s: string, c: char)
    ensures CollapseRuns(s + [c]) == CollapseRuns(s) + CollapseTail(s, c)
  {
    assert DropLast(s + [c]) == s && Last(s + [c]) == c;
  }

  /** The step of `CollapseConcat`, from `b` without its last character to `b`. */
  lemma CollapseConcatStep(a: string, b: string)
    requires a != [] && b != []
    requires IsLowerAlnum(Last(a)) || IsLowerAlnum(b[0])
    requires CollapseRuns(a + DropLast(b)) == CollapseRuns(a) + CollapseRuns(DropLast(b))
    ensures CollapseRuns(a + b) == CollapseRuns(a) + CollapseRuns(b)
  {
    var b', c := DropLast(b), Last(b);
    ConcatSnoc(a, b);
    CollapseSnoc(a + b', c);
    CollapseSnoc(b', c);
    assert CollapseTail(a + b', c) == CollapseTail(b', c);
    ConcatAssoc(CollapseRuns(a), CollapseRuns(b'), CollapseTail(b', c));
  }

  /** Two words around a run of other characters are joined by one '-'. */
  lemma CollapseWords(a: string, g: string, b: string)
    requires a != [] && forall i :: 0 <= i < |a| ==> IsLowerAlnum(a[i])
    requires b != [] && forall i :: 0 <= i < |b| ==> IsLowerAlnum(b[i])
    requires g != [] && forall i :: 0 <= i < |g| ==> !IsLowerAlnum(g[i])
    ensures CollapseRuns(a + g + b) == a + "-" + b
  {
    CollapseConcat(a, g);
    CollapseConcat(a + g, b);
    CollapseOfWord(a);
    CollapseOfRun(g);
    CollapseOfWord(b);
  }

  /** Number of copies of `c` that `s` starts with. */
  function LeadCount(s: string, c: char): (n: nat)
    ensures n <= |s|
    ensures forall k :: 0 <= k < n ==> s[k] == c
    ensures n == |s| || s[n] != c
    decreases |s|
  {
    if s != [] && s[0] == c then
      var n := 1 + LeadCount(s[1..], c);
      assert forall k :: 1 <= k < n ==> s[k] == s[1..][k - 1];
      n
    else 0
  }

  /** Number of copies of `c` that `s` ends with. */
  function TrailCount(s: string, c: char): (n: nat)
    ensures n <= |s|
    ensures forall k :: |s| - n <= k < |s| ==> s[k] == c
    ensures n == |s| || s[|s| - n - 1] != c
    decreases |s|
  {
    if s != [] && Last(s) == c then 1 + TrailCount(DropLast(s), c) else 0
  }

  /** Where the text left by `TrimDashes` starts in `s`. */
  function DashStart(s: string): nat
    ensures DashStart(s) <= |s|
  {
    LeadCount(s, '-')
  }

  /** Where the text left by `TrimDashes` ends in `s`. */
  function DashEnd(s: string): nat
    ensures DashStart(s) <= DashEnd(s) <= |s|
  {
    |s| - TrailCount(s[DashStart(s)..], '-')
  }

  /**
   `replace(/^-+|-+$/g, '')`: the text between the leading and the trailing
   dashes, which neither starts nor ends with a dash.
   */
  function TrimDashes(s: string): (r: string)
    ensures r == [] || (r[0] != '-' && Last(r) != '-')
    ensures forall k :: 0 <= k < DashStart(s) ==> s[k] == '-'
    ensures forall k :: DashEnd(s) <= k < |s| ==> s[k] == '-'
    ensures r == s[DashStart(s)..DashEnd(s)]
  {
    DashSlice(s);
    s[DashStart(s)..DashEnd(s)]
  }

  /** The slice between the leading and the trailing dashes has no dash at either end. */
  lemma DashSlice(s: string)
    ensures var r := s[DashStart(s)..DashEnd(s)];
      && (r == [] || (r[0] != '-' && Last(r) != '-'))
      && (forall k :: DashEnd(s) <= k < |s| ==> s[k] == '-')
  {
    var i := DashStart(s);
    var t := s[i..];
    var j := TrailCount(t, '-');
    SuffixPrefix(s, i, |t| - j);
  }

  /** A contiguous piece of a slug-shaped text is slug-shaped. */
  lemma SlugShapeSlice(s: string, i: nat, j: nat)
    requires i <= j <= |s|
    requires forall k :: 0 <= k < |s| ==> IsSlugChar(s[k])
    requires NoDoubleDash(s)
    ensures forall k :: 0 <= k < j - i ==> IsSlugChar(s[i..j][k])
    ensures NoDoubleDash(s[i..j])
  {
    forall k | 0 <= k < j - i - 1
      ensures !(s[i..j][k] == '-' && s[i..j][k + 1] == '-')
    {
      assert s[i..j][k] == s[i + k] && s[i..j][k + 1] == s[i + k + 1];
    }
  }

  /** Removing dashes does not change the letters and digits. */
  lemma {:induction false} TrimDashesKeepsAlnum(s: string)
    ensures Filter(IsLowerAlnum, TrimDashes(s)) == Filter(IsLowerAlnum, s)
  {
    var i, j := DashStart(s), DashEnd(s);
    assert TrimDashes(s) == s[i..j];
    forall k | 0 <= k < i ensures !IsLowerAlnum(s[k]) {
      assert s[k] == '-';
    }
    forall k | j <= k < |s| ensures !IsLowerAlnum(s[k]) {
      assert s[k] == '-';
    }
    FilterMiddle(IsLowerAlnum, s, i, j);
  }

  /** Longest slug `slug` returns. */
  const SlugLength := 80

  /**
   `slug(s)`: lower-case the text, turn every run of other characters into one
   '-', drop leading and trailing dashes and keep at most 80 characters. The
   result holds only `[a-z0-9-]`, never starts with '-' and never has two
   dashes in a row; when no truncation happens it does not end with '-' either
   and keeps every letter and digit of the lowered text, in order.
   */
  function Slug(s: string): (r: string)
    ensures forall i :: 0 <= i < |r| ==> IsSlugChar(r[i])
    ensures |r| <= SlugLength
    ensures r == [] || r[0] != '-'
    ensures NoDoubleDash(r)
    ensures |TrimDashes(CollapseRuns(Lower(s)))| <= SlugLength ==>
      (r == [] || Last(r) != '-') && Filter(IsLowerAlnum, r) == Filter(IsLowerAlnum, Lower(s))
    ensures |TrimDashes(CollapseRuns(Lower(s)))| <= SlugLength ==> r == TrimDashes(CollapseRuns(Lower(s)))
  {
    var c := CollapseRuns(Lower(s));
    var t := TrimDashes(c);
    SlugShapeSlice(c, DashStart(c), DashEnd(c));
    TrimDashesKeepsAlnum(c);
    CollapseKeepsAlnum(Lower(s));
    var r := Take(t, SlugLength);
    SlugShapeSlice(t, 0, |r|);
    assert r == t[0..|r|];
    r
  }

  /** Lower-casing leaves slug-shaped text alone. */
  lemma {:induction false} LowerOfSlugShape(s: string)
    requires forall i :: 0 <= i < |s| ==> IsSlugChar(s[i])
    ensures Lower(s) == s
    decreases |s|
  {
    if s != [] {
      LowerOfSlugShape(s[1..]);
      assert LowerChar(s[0]) == [s[0]];
    }
  }

  /** Collapsing runs leaves slug-shaped text alone. */
  lemma {:induction false} CollapseOfSlugShape(s: string)
    requires forall i :: 0 <= i < |s| ==> IsSlugChar(s[i])
    requires NoDoubleDash(s)
    ensures CollapseRuns(s) == s
    decreases |s|
  {
    if s != [] {
      SlugShapeSlice(s, 0, |s| - 1);
      assert DropLast(s) == s[0..|s| - 1];
      CollapseOfSlugShape(DropLast(s));
      if !IsLowerAlnum(Last(s)) && DropLast(s) != [] {
        assert s[|s| - 2] == Last(DropLast(s));
      }
    }
  }

  /**
   A slug that does not end with '-' is its own slug. (A slug cut at 80
   characters can end with '-', and slugging it again drops that dash.)
   */
  lemma SlugIdempotent(s: string)
    ensures Slug(s) == [] || Last(Slug(s)) != '-' ==> Slug(Slug(s)) == Slug(s)
  {
    var r := Slug(s);
    if r != [] && Last(r) == '-' {
      return;
    }
    LowerOfSlugShape(r);
    CollapseOfSlugShape(r);
    assert DashStart(r) == 0;
    assert DashEnd(r) == |r| by {
      if r != [] {
        assert r[DashStart(r)..] == r;
      }
    }
    assert TrimDashes(r) == r;
  }

  // ---------------------------------------------------------------------------
  // ts and fileStem

  /**
   `ts()`: the ISO time text with every ':' and '.' replaced by '-', so that
   it can sit in a file name.
   */
  function Ts(iso: string): (r: string)
    ensures |r| == |iso|
    ensures ':' !in r && '.' !in r
    ensures forall i :: 0 <= i < |iso| && iso[i] != ':' && iso[i] != '.' ==> r[i] == iso[i]
    ensures forall i :: 0 <= i < |iso| && (iso[i] == ':' || iso[i] == '.') ==> r[i] == '-'
  {
    seq(|iso|, i requires 0 <= i < |iso| => if iso[i] == ':' || iso[i] == '.' then '-' else iso[i])
  }

  /** Longest slug part of a file stem. */
  const StemSlugLength := 40

  /**
   `fileStem(text, prefix)`: `prefix`, a dash, at most 40 leading characters
   of the text's slug, a dash and the time stamp (the value `ts()` returned
   at that moment).
   */
  function FileStem(text: string, prefix: string, stamp: string): (r: string)
    ensures StartsWith(r, prefix + "-")
    ensures EndsWith(r, "-" + stamp)
    ensures |prefix| + |stamp| + 2 <= |r| <= |prefix| + |stamp| + 2 + StemSlugLength
    ensures forall i :: |prefix| + 1 <= i < |r| - |stamp| - 1 ==> IsSlugChar(r[i])
    ensures r[|prefix| + 1..|r| - |stamp| - 1] == Take(Slug(text), StemSlugLength)
  {
    var mid := Take(Slug(text), StemSlugLength);
    var head := prefix + "-";
    var tail := "-" + stamp;
    var r := head + mid + tail;
    ConcatParts(head, mid, tail);
    r
  }

  // ---------------------------------------------------------------------------
  // isTrue

  /** The JavaScript values `isTrue` can be handed. */
  datatype JsValue = Undefined | Null | Bool(b: bool) | Num(n: real) | Str(s: string)

  /** JavaScript truthiness (NaN is not represented). */
  predicate Truthy(v: JsValue) {
    match v
    case Undefined => false
    case Null => false
    case Bool(b) => b
    case Num(n) => n != 0.0
    case Str(s) => s != ""
  }

  /**
   `isTrue(v)`: strict equality with one of `true`, `'true'`, `1`, `'1'`.
   Every such value is truthy, but not every truthy value is accepted.
   */
  function IsTrue(v: JsValue): (r: bool)
    ensures r ==> Truthy(v)
    ensures r <==> v in {Bool(true), Str("true"), Num(1.0), Str("1")}
  {
    v == Bool(true) || v == Str("true") || v == Num(1.0) || v == Str("1")
  }

  // ---------------------------------------------------------------------------
  // retry

  /**
   One run of the retry loop: its outcome (`Err(None)` stands for throwing
   `undefined`, which happens when the loop body never runs), the attempt
   indices handed to `fn`, in call order, and the attempts after which the
   loop slept before trying again.
   */
  datatype RetryRun<T, E> = RetryRun(outcome: Result<T, Option<E>>, attempts: seq<nat>, sleeps: seq<nat>)

  /** `fn` fails on every attempt index in `[from, to)`. */
  predicate FailsOn<T, E>(fn: nat -> Result<T, E>, from: nat, to: int) {
    forall j: nat :: from <= j < to ==> fn(j).Err?
  }

  /**
   The loop of `retry` from attempt `attempt` on, with `lastErr` the error
   caught so far. It stops at the first attempt that succeeds, and after the
   attempt numbered `retries` whatever that gives; it sleeps after every
   failed attempt except that last one.
   */
  function RetryLoop<T, E>(fn: nat -> Result<T, E>, retries: int, attempt: nat, lastErr: Option<E>): (run: RetryRun<T, E>)
    ensures forall i :: 0 <= i < |run.attempts| ==> run.attempts[i] == attempt + i
    ensures run.attempts == [] ==> run.sleeps == []
    ensures run.attempts != [] ==> run.sleeps == DropLast(run.attempts)
    ensures attempt > retries ==> run == RetryRun(Err(lastErr), [], [])
    ensures attempt <= retries ==> 1 <= |run.attempts| <= retries - attempt + 1
    ensures run.outcome.Ok? ==>
      && |run.attempts| > 0
      && fn(attempt + |run.attempts| - 1) == Ok(run.outcome.value)
      && FailsOn(fn, attempt, attempt + |run.attempts| - 1)
    ensures attempt <= retries && run.outcome.Err? ==>
      && |run.attempts| == retries - attempt + 1
      && FailsOn(fn, attempt, retries + 1)
      && run.outcome.error == Some(fn(retries).error)
    decreases if attempt <= retries then retries - attempt else 0
  {
    if attempt > retries then RetryRun(Err(lastErr), [], [])
    else
      match fn(attempt)
      case Ok(v) => RetryRun(Ok(v), [attempt], [])
      case Err(e) =>
        if attempt == retries then RetryRun(Err(Some(e)), [attempt], [])
        else
          var rest := RetryLoop(fn, retries, attempt + 1, Some(e));
          RetryRun(rest.outcome, [attempt] + rest.attempts, [attempt] + rest.sleeps)
  }

  /**
   `retry(fn, {retries})`: `fn` is called with 0, 1, 2, ... until a call
   succeeds, whose value is returned with no further call; if all `retries+1`
   calls fail, the last call's error is thrown. A negative `retries` never
   calls `fn` and throws `undefined`. No sleep follows the last call.
   */
  function Retry<T, E>(fn: nat -> Result<T, E>, retries: int): (run: RetryRun<T, E>)
    ensures forall i :: 0 <= i < |run.attempts| ==> run.attempts[i] == i
    ensures |run.attempts| <= if retries < 0 then 0 else retries + 1
    ensures run.attempts != [] ==> run.sleeps == DropLast(run.attempts)
    ensures retries < 0 ==> run == RetryRun(Err(None), [], [])
    ensures run.outcome.Ok? <==> exists k: nat :: k <= retries && fn(k).Ok?
    ensures run.outcome.Ok? ==>
      var k := |run.attempts| - 1;
      k >= 0 && fn(k) == Ok(run.outcome.value) && FailsOn(fn, 0, k)
    ensures retries >= 0 && run.outcome.Err? ==>
      |run.attempts| == retries + 1 && run.outcome.error == Some(fn(retries).error)
  {
    var run := RetryLoop(fn, retries, 0, None);
    assert run.outcome.Ok? <==> exists k: nat :: k <= retries && fn(k).Ok? by {
      if run.outcome.Ok? {
        assert fn(|run.attempts| - 1).Ok?;
      }
    }
    run
  }

  /**
   `Number(process.env.OPENAI_MAX_RETRIES) || 3`, with `None` for a variable
   that is unset or not a number: a falsy setting (0 or NaN) becomes 3, any
   other number is used as it is.
   */
  function RetryCount(setting: Option<int>): (r: int)
    ensures r != 0
    ensures setting.Some? && setting.value != 0 ==> r == setting.value
    ensures setting.None? ==> r == 3
  {
    if setting.Some? && setting.value != 0 then setting.value else 3
  }
}
